=== FILE: README.md ===
# Readability tools in Dafny

A model of `readability_tools.py`, the readability-metric module that scores English text with Flesch
Reading Ease (FRES), the Automated Readability Index (ARI), SMOG and the Gunning Fog Index (GFI), and
that converts these scores into reading ages. The model covers the string and integer logic underneath
those metrics, plus the exact-real interpolation of the age converters:

- `heuristic.dfy` (`Heuristic`): the fallback syllable estimator `syllables`. It counts vowel-run starts,
  applies the stacking suffix rules for `e`, `le`, `sm` and `thm`, and raises a count of zero to one.
- `pronounce.dfy` (`Pronounce`): the pronunciation dictionary as an abstract map from lower-case words to
  non-empty lists of phoneme variants.
  - A variant's count is the number of its phonemes that end in a digit.
  - Several counts resolve to their unique mode. When there is no unique mode, they resolve to their mean,
    rounded half to even.
- `pythonic.dfy` (`Pythonic`): Python's `round` (ties to even) on a ratio of integers, and Python slicing
  with negative and out-of-range bounds.
- `reals.dfy` (`Reals`): one order fact about real multiplication, shared by `Metrics` and `Ages`.
- `text.dfy` (`Text`): ASCII character classes, `lower`, `endswith`, substring search, `split` and `strip`.
- `nsyl.dfy` (`Nsyl`): `nsyl` with all its branches.
  - The three exact-case overrides.
  - The three brand names.
  - The heuristic fallback.
  - The hyphen branches: split and sum, strip and retry, or count one.
  - The result is `Count(n)` or `Diverges`. `Diverges` is for the tokens on which the strip-and-retry
    branch calls itself on the same token forever.
- `tokens.dfy` (`Tokens`): the word and sentence filters of `get_words_list` and `get_sentence_list`.
  They are order-preserving filters over the tokenizer's output, with each regular expression written as
  a substring-match predicate. This file also has `get_word_count` and `get_sentence_count`.
- `metrics.dfy` (`Metrics`): the integer parts of the metrics.
  - The syllable total of `fres` and the character total of `ari`.
  - The difficult-word count of `smog` and `get_complex_words_count`.
  - The complex-word test of `gfi` over (word, tag) pairs.
  - SMOG's three sentence slices, and its score `round(sqrt(k)) + 3` computed exactly in integers.
- `ages.dfy` (`Ages`): `convert_fres`, `convert_ari` and `convert_gfi`. A clamped result is a string
  literal (`Clamped`) and an interpolated one is a number (`Interp`). The interpolation is SciPy's
  `interp1d` on points sorted by score, computed in exact reals.

Behaviour of the code that is easy to misread, and that the model follows:

- The SMOG start sample `sentence_list[0:9]` has nine sentences, not ten.
- The SMOG middle sample `[floor(n/2 - 5):round(n/2 - 5)]` holds at most one sentence. It is non-empty
  exactly when `n` is 5, 13, 17, 21, … (`n % 4 == 1`, other than 1 and 9).
- The SMOG end sample wraps around for fewer than ten sentences.
- The URL pattern needs three dot-separated letter runs and a mandatory `/`. So `www.example.com` and
  `example.com/page` are not words on that ground.
- The class `[a-zA-z]` also admits ``[ \ ] ^ _ ` ``, so `'_` is a word.
- The overrides for `US`, `us` and `separate` fire only when the lower-cased word is in the dictionary.
- `ab--cd` (and every letters-and-hyphens token with no single hyphen between letters but letters on
  both sides of some hyphen, such as `-ab--cd-`) never gets a count. After at most one strip,
  `strip('-')` leaves the token unchanged and `nsyl` calls itself on it again.

## Model

| member | source | states |
|---|---|---|
| Heuristic.Syllables | readability_tools.py:103-121 | The loop that counts vowel-run starts, followed by the four suffix rules and the bump from zero, returns the estimate for every non-empty word, and that estimate is at least 1 |
| Heuristic.Estimate | readability_tools.py:103-121 | The estimate of a non-empty word is at least 1, because a count of zero is raised to one |
| Heuristic.RunStartsCountRuns | readability_tools.py:106-110 | Counting positions that hold a vowel not preceded by a vowel gives the number of maximal vowel runs. The runs are counted by an independent definition that peels runs off the end |
| Heuristic.VowelRunsPositive | readability_tools.py:104-110 | A word has a vowel run exactly when it contains one of `aeiouy` |
| Heuristic.SuffixRulesStack | readability_tools.py:111-118 | The suffix rules stack. A final `le` nets zero, a final `e` alone takes one away, and `sm` or `thm` adds one. The net adjustment is always -1, 0 or +1 |
| Heuristic.EstimateTable | readability_tools.py:111-114 | `table` is estimated at 2: the `le` rule cancels the `e` rule |
| Heuristic.EstimateRhythm | readability_tools.py:117-118 | `rhythm` is estimated at 2: one vowel run plus one for `thm` |
| Heuristic.EstimatePrism | readability_tools.py:115-116 | `prism` is estimated at 2: one vowel run plus one for `sm` |
| Heuristic.EstimateRaisedFromZero | readability_tools.py:119-120 | `the` is estimated at 1: its single run is cancelled by the `e` rule and then raised from zero |
| Heuristic.EstimateSeparate | readability_tools.py:103-112 | `separate` is estimated at 3: four vowel runs less one for the final `e` |
| Pythonic.RoundHalfEven | readability_tools.py:56 | `round(num / den)` is the integer within half of the exact ratio, and on a tie it is the even one |
| Pythonic.NearestHalfEvenUnique | readability_tools.py:56 | Under ties-to-even exactly one integer is the rounding of a ratio |
| Pythonic.NearestHalfEvenBetween | readability_tools.py:56 | Rounding a ratio never leaves integer bounds of the ratio |
| Pythonic.Slice | readability_tools.py:220-222 | A Python slice is a contiguous run of the sequence between the clamped bounds. It is empty unless the clamped start is below the clamped end, and otherwise it ends at the clamped end |
| Pronounce.Stressed | readability_tools.py:40 | The definition of `phoneme[-1].isdigit()`: the last character of a phoneme is an ASCII digit. No contract of its own |
| Pronounce.StressCount | readability_tools.py:37-42 | A variant's count is the number of its phonemes whose last character is a digit: the number of `true`s among its position-by-position stress marks. So it is at most its number of phonemes, and it is positive exactly when some phoneme ends in a digit |
| Pronounce.VariantCounts | readability_tools.py:37-42 | The definition of the outer loop that appends one count per variant, in the dictionary's order. No contract of its own: DictionaryWordCount uses it |
| Pronounce.VoicedVariant | readability_tools.py:37-42 | If every variant of every entry has a phoneme ending in a digit, every variant counts at least one |
| Pronounce.UniqueMode | readability_tools.py:52-55 | `statistics.mode` with its pre-3.8 policy. It returns the value that occurs strictly more often than every other, and it fails (`None`) exactly when no value does |
| Pronounce.UniqueModeIsUnique | readability_tools.py:52-54 | A list has at most one unique mode |
| Pronounce.RoundedMean | readability_tools.py:56-57 | `int(round(mean(counts), 0))` is the integer nearest the mean with ties to even, and it lies between the least and greatest count |
| Pronounce.Resolve | readability_tools.py:49-59 | Several counts give their unique mode when one exists, and otherwise their mean rounded half to even. The result always lies between the least and greatest count |
| Pronounce.ResolveAgreeing | readability_tools.py:49-59 | When every variant has the same count, that count is the result |
| Pronounce.NoModeOfTwo | readability_tools.py:52-55 | Two different counts have no unique mode, so `mode` fails on them |
| Pronounce.ResolveTies | readability_tools.py:55-57 | Counts 2 and 3 resolve to 2, and counts 3 and 4 resolve to 4: the mean is rounded half to even |
| Nsyl.NSyl | readability_tools.py:18-89 | The definition of `nsyl` with all its branches, in source order. The all-letter branch goes to `WordSyllables`. In the hyphen branch, a foreign character gives 1, a joining hyphen gives the sum over `split('-')`, and a trailing hyphen retries on `strip('-')` (`Diverges` when the strip changes nothing). Every other case gives 1. No contract of its own: the lemmas below characterise it |
| Nsyl.HasForeign | readability_tools.py:72 | The definition of `re.search("[^-a-zA-Z]", word)`: some character is neither a hyphen nor an ASCII letter. No contract of its own: OpaqueTokens uses it |
| Nsyl.HasJoiningHyphen | readability_tools.py:75 | The definition of `re.search("[a-zA-Z]+\-[a-zA-Z]+", word)`. It finds a match exactly when some hyphen has a letter immediately before and after it, since the `+` runs can shrink to one letter. No contract of its own: JoiningBranch and DivergesExactly use it |
| Nsyl.HasTrailingHyphen | readability_tools.py:83 | The definition of `re.search("[a-zA-Z]+\-\B", word)`: a hyphen right after a letter, with no word boundary after the hyphen. A hyphen is not a word character, so among the ASCII characters this branch can see, there is a boundary after it exactly when a word character (`[a-zA-Z0-9_]`) follows. `\B` therefore holds at the end of the token or before a non-word character, such as another hyphen. No contract of its own: TrailingBranch uses it |
| Nsyl.WordSyllables | readability_tools.py:33-69 | The definition of the all-letter branch: the dictionary with its three exact-case overrides, then the three names, then the heuristic. No contract of its own: DictionaryWordCount, OverridesNeedEntry, NameOverride and AbsentWordIsEstimated characterise it |
| Nsyl.SumSyl | readability_tools.py:77-81 | The definition of the loop that adds `nsyl` over the split pieces, left to right; one piece without a count spoils the sum. No contract of its own: SumSylConcat and SumSylResolves characterise it |
| Nsyl.DictionaryWordCount | readability_tools.py:33-59 | Take an all-letter word whose lower-case form is in the dictionary and that is not one of the three overrides. Its count is its single variant's count, else the unique mode of its variants' counts, else their mean rounded half to even |
| Nsyl.OverridesNeedEntry | readability_tools.py:43-48 | `US` gives 2 and `us` gives 1 when `us` is an entry. `separate` gives 2 when it is an entry, and when it is not it falls through to the estimator, which gives 3 |
| Nsyl.NameOverride | readability_tools.py:60-67 | An all-letter word whose lower-case form is absent from the dictionary gets the all-letter count. That count is 2 for `facebook`, 3 for `thefacebook` and 2 for `tumblr`, in any letter case |
| Nsyl.NameOverrides | readability_tools.py:60-67 | `FaceBook` gives 2, `TheFacebook` gives 3 and `Tumblr` gives 2 when absent from the dictionary |
| Nsyl.AbsentWordIsEstimated | readability_tools.py:60-69 | Any other all-letter word absent from the dictionary gets exactly the heuristic estimate |
| Nsyl.NoHyphenResolves | readability_tools.py:33-89 | A token without a hyphen always gets a count |
| Nsyl.OpaqueTokens | readability_tools.py:70-89 | A token that is not all letters and has no hyphen counts one, and so does the empty token. A hyphenated token with a character outside `[-a-zA-Z]` also counts one |
| Nsyl.JoiningBranch | readability_tools.py:75-81 | For a letters-and-hyphens token with a hyphen between two letters, the count is the sum of the counts of its `-`-separated pieces |
| Nsyl.HyphenAdds | readability_tools.py:75-81 | `a-b` for all-letter `a` and `b` counts as `a` plus `b` |
| Nsyl.EmptyPieceCountsOne | readability_tools.py:75-81 | An empty piece of the split counts one: `a-b--c` is `a` + `b` + 1 + `c` |
| Nsyl.SumSylConcat | readability_tools.py:77-81 | Summing counts over a concatenation adds the two sums, and a token without a count spoils the whole sum |
| Nsyl.SumSylResolves | readability_tools.py:77-81 | A sum of counts exists exactly when every token gets a count |
| Nsyl.TrailingBranch | readability_tools.py:83-85 | Take a letters-and-hyphens token with no hyphen between two letters but a hyphen after a letter and before no word character. It counts as its hyphen-stripped form, and it has no count when stripping changes nothing |
| Nsyl.TrailingHyphenStripped | readability_tools.py:83-85 | `word-` counts as `word` |
| Nsyl.AtLeastOne | readability_tools.py:18-89 | If every variant has a phoneme ending in a digit, every count `nsyl` returns is at least 1 |
| Nsyl.SumAtLeastLength | readability_tools.py:77-81 | Under the same assumption, a resolved sum over some tokens is at least their number |
| Nsyl.DivergesExactly | readability_tools.py:70-87 | `nsyl` returns no count exactly on the stuck tokens. These use only letters and hyphens, have no single hyphen between two letters, and have letters on both sides of some hyphen |
| Nsyl.StuckStrip | readability_tools.py:83-85 | Stripping outer hyphens from a stuck token leaves it stuck |
| Nsyl.StuckWiden | readability_tools.py:83-85 | A token whose stripped form is stuck has letters on both sides of one of its own hyphens |
| Nsyl.StuckUnstrippable | readability_tools.py:83-87 | A letters-and-hyphens token that contains a hyphen and that `strip('-')` leaves unchanged has letters before and after one of its hyphens |
| Nsyl.DoubleHyphenDiverges | readability_tools.py:83-85 | `ab--cd` never gets a count |
| Text.IsAlpha | readability_tools.py:33 | The definition of `str.isalpha()` over ASCII: non-empty and letters only. No contract of its own |
| Text.IsAlnumWord | readability_tools.py:136 | The definition of `str.isalnum()` over ASCII: non-empty and letters or digits only. No contract of its own |
| Text.Lower | readability_tools.py:36 | The definition of `str.lower()` over ASCII: each upper-case letter maps to its lower-case letter, and every other character is kept. No contract of its own |
| Text.EndsWith | readability_tools.py:111-118 | The definition of `str.endswith(suffix)`: the last `|suffix|` characters are the suffix. No contract of its own |
| Text.Contains | readability_tools.py:257-258 | The definition of the substring test `sub in s`, used for `"NNP"` and `"VB"` in the tag: `sub` is a prefix of some suffix of `s`. No contract of its own |
| Text.Split | readability_tools.py:76 | `split('-')` gives at least one piece, and at least two when the separator occurs. No piece contains the separator, the pieces joined with the separator are the original, and their lengths add up to its length less the separators |
| Text.SplitJoin | readability_tools.py:76 | Splitting the join of separator-free pieces gives the pieces back |
| Text.Strip | readability_tools.py:84 | `strip('-')` leaves a part of the token with only hyphens on either side of it, and that part neither starts nor ends with a hyphen. It is the whole token exactly when the token neither starts nor ends with a hyphen |
| Text.StripOneTrailing | readability_tools.py:84 | Stripping a word followed by one hyphen gives the word back |
| Tokens.Filter | readability_tools.py:135-139 | A list comprehension with a condition keeps a value exactly when the value is in the input and satisfies the condition |
| Tokens.FilterPointwiseBound | readability_tools.py:257-260 | When every word kept by one filter is kept by a second filter at the same position, the first keeps no more words; this is how the `gfi` test at :257-260 is bounded by the difficulty test `nsyl(word) >= 3` at :281, word by word |
| Tokens.FilterConcat | readability_tools.py:135-139 | The filter keeps order: filtering a concatenation concatenates the filtered parts |
| Tokens.FilterCounts | readability_tools.py:135-139 | The filter keeps every occurrence of a qualifying value and drops every occurrence of the others |
| Tokens.FilterKeepsAll | readability_tools.py:135-139 | The filter keeps everything exactly when every element qualifies |
| Tokens.FilterKeepsNone | readability_tools.py:135-139 | The filter keeps nothing exactly when no element qualifies |
| Tokens.KeepWord | readability_tools.py:135-139 | The definition of the condition of `get_words_list`: `isalnum`, or one of the four regular-expression searches. No contract of its own: WordExamples, PunctuationIsNotAWord, UrlNeedsThreeLabelsAndSlash, ApostropheRangeQuirk and KeptWordNonEmpty pin it down |
| Tokens.HasApostrophe | readability_tools.py:136 | The definition of `re.search("'[a-zA-z]+", w)`: an apostrophe followed by a character of the range `A`..`z`. No contract of its own |
| Tokens.HasUrl | readability_tools.py:137 | The definition of the URL search: a letter, a dot, a letter run, a dot, a letter run, then a `/`. The trailing `[a-zA-Z0-9]*` can match nothing, so it adds no condition. No contract of its own |
| Tokens.HasDecimal | readability_tools.py:138 | The definition of `re.search("\d+\.\d+", w)`: a dot with a digit on either side. No contract of its own |
| Tokens.HyphenAlnum | readability_tools.py:139 | The definition of `"-" in w and re.search("[a-zA-Z0-9]+", w)`. No contract of its own |
| Tokens.KeepSentence | readability_tools.py:155 | The definition of the condition of `get_sentence_list`: some ASCII letter. No contract of its own: SentenceList and SentenceExamples use it |
| Tokens.CountKept | readability_tools.py:280-283 | The counting loop `count += 1` for each element meeting the condition. It returns the length of the filtered list |
| Tokens.WordsList | readability_tools.py:135-141 | The words are exactly the tokens that are alphanumeric or contain one of the apostrophe, URL, decimal or hyphen-with-alphanumeric patterns. Each kept word is non-empty |
| Tokens.KeptWordNonEmpty | readability_tools.py:135-139 | No pattern matches the empty token |
| Tokens.WordsListConcat | readability_tools.py:135-141 | The words of two runs of tokens are the words of each, in order |
| Tokens.SentenceList | readability_tools.py:154-157 | The sentences kept are exactly those containing an ASCII letter |
| Tokens.WordCount | readability_tools.py:294-296 | The word count is at most the token count. It equals the token count exactly when every token is a word, and it is zero exactly when none is |
| Tokens.SentenceCount | readability_tools.py:306-308 | The sentence count is at most the number of sentences. It equals that number exactly when every sentence has a letter, and it is zero exactly when none has |
| Tokens.WordExamples | readability_tools.py:136-139 | `3.5`, `n't`, `e-mail` and `www.example.com/page` are words |
| Tokens.PunctuationIsNotAWord | readability_tools.py:135-139 | Tokens made only of the characters `-,.;:!?()` are not words |
| Tokens.UrlNeedsThreeLabelsAndSlash | readability_tools.py:137 | `www.example.com` (no slash) and `example.com/page` (two labels) are not words |
| Tokens.ApostropheRangeQuirk | readability_tools.py:136 | The class `[a-zA-z]` admits `_`, so `'_` is a word |
| Tokens.SentenceExamples | readability_tools.py:151-155 | A list marker `1.` is dropped and `Introduction.` is kept |
| Metrics.TotalSyllables | readability_tools.py:174-176 | The syllable total of `fres` is the sum of `nsyl` over the words. If every variant has a phoneme ending in a digit, it is at least the number of words |
| Metrics.TotalChars | readability_tools.py:198-200 | The character total of `ari` is the sum of the word lengths, and at least the number of words when no word is empty |
| Metrics.KeptCharsAtLeastWords | readability_tools.py:198-200 | Over the words `get_words_list` keeps, the character total is at least the word count |
| Metrics.Difficult | readability_tools.py:281 | The definition of `nsyl(word) >= 3`: `nsyl` returns, and its count is at least 3. No contract of its own: ComplexCount and GfiComplex use it |
| Metrics.ComplexCount | readability_tools.py:277-284 | The number of words for which `nsyl` returns 3 or more, counted as the length of the filtered list. It is at most the number of words |
| Metrics.GfiComplex | readability_tools.py:257-260 | The definition of the condition of `gfi`. The word has 3 or more syllables, its tag does not contain `NNP`, and it has no hyphen. It must also not be a 3-syllable word whose tag contains `VB` and that ends in `es`, `ed` or `ing` (`(...) is False` is a negation). No contract of its own: GfiComplexWords and GfiBounds use it |
| Metrics.ComplexWords | readability_tools.py:277-284 | The difficult-word count is the number of words with three or more syllables, and it is at most the number of words |
| Metrics.GfiComplexWords | readability_tools.py:253-261 | The complex count of `gfi` applies the complex-word test to each tagged word, and it is at most the difficult-word count of the same words |
| Metrics.GfiBounds | readability_tools.py:253-261 | For the same words, the `gfi` complex count is at most the difficult count, which is at most the word count |
| Metrics.SmogStart | readability_tools.py:220 | The start sample is the first `min(n, 9)` sentences |
| Metrics.SmogMiddle | readability_tools.py:221 | The middle sample has at most one sentence and is empty for even `n`. It has one exactly when `n % 4 == 1` and `n` is neither 1 nor 9. That sentence is at index `(n - 11) / 2`, counting from 0, once `n >= 11`, and at index 2 for `n = 5` |
| Metrics.MiddleBounds | readability_tools.py:221 | `floor(n/2 - 5)` and `round(n/2 - 5)` agree for even `n`. For odd `n` the round is one above the floor exactly when `n % 4 == 1` |
| Metrics.SmogEnd | readability_tools.py:222 | The end sample is the last 10 sentences when `n >= 10`, the last `10 - n` when `5 <= n < 10`, and all `n` otherwise |
| Metrics.SmogSampleOfThirteen | readability_tools.py:220-222 | With 13 sentences, the samples are the first nine, the second sentence, and the last ten |
| Metrics.RoundSqrt | readability_tools.py:231 | `round(sqrt(k))` is the `r` with `r*r - r < k <= r*r + r`, or 0 for 0 |
| Metrics.RoundedRootUnique | readability_tools.py:231 | Each count has exactly one rounded square root |
| Metrics.RoundedRootIsNearest | readability_tools.py:231 | The integer characterisation holds exactly when `r` is within one half of the exact real square root, both bounds included. So over exact reals no count sits at a tie |
| Metrics.RoundSqrtMonotone | readability_tools.py:231 | The rounded square root never decreases as the count grows |
| Metrics.Smog | readability_tools.py:226-233 | The SMOG score is at least 3, and it is 3 plus the rounded square root of the difficult-word count |
| Metrics.SmogMonotone | readability_tools.py:226-233 | Adding words to a sample never lowers its difficult-word count, so it never lowers its SMOG score |
| Ages.Segment | readability_tools.py:323 | `interp1d` picks segment `j`, with `1 <= j < n`. Every table score from the second up to before `j` is below the score, and the score is at most the table score at `j` unless `j` is the last segment. This is a left-sided sorted search clipped to the first and last segments. Which bracketing segment is chosen does not affect the age: the line is continuous, and at a table score both neighbouring segments give the table age (InterpolateAtBreakpoint), so a right-sided search such as `xp[j] <= x < xp[j+1]` gives the same value |
| Ages.SegmentBrackets | readability_tools.py:323 | A score inside the table lies between the two ends of its segment |
| Ages.Interpolate | readability_tools.py:323 | The interpolant lies on the straight line through the two table points that end the segment holding the score: `(r - y0) * (x1 - x0) == (y1 - y0) * (v - x0)`. It also lies between their two ages |
| Ages.Lerp | readability_tools.py:323 | The value at `v` of the line through `(x0, y0)` and `(x1, y1)`: its rise from `y0`, times the run `x1 - x0`, equals the full rise times `v - x0` |
| Ages.InterpolationWithin | readability_tools.py:323 | A linear piece stays between its end values over its segment |
| Ages.InterpolateBounded | readability_tools.py:323 | When every table age lies in a range, every interpolated age does too |
| Ages.InterpolateAtBreakpoint | readability_tools.py:323 | At a table score the interpolant is exactly the table age |
| Ages.InterpolateMonotone | readability_tools.py:323 | With non-decreasing ages the interpolant is non-decreasing |
| Ages.InterpolateNegate | readability_tools.py:323 | Negating the ages negates the interpolant |
| Ages.InterpolateAntitone | readability_tools.py:323 | With non-increasing ages the interpolant is non-increasing |
| Ages.FresXs | readability_tools.py:321-323 | `interp1d` sorts the points by score, so the descending FRES scores become the table reversed, `30` to `100`, in strictly increasing order |
| Ages.FresYs | readability_tools.py:321-323 | The FRES ages in the order of the sorted scores: the ages reversed, `24` down to `10`, non-increasing |
| Ages.ConvertFres | readability_tools.py:319-332 | `convert_fres` gives the string `24` below 30 and `10` above 100. In between it gives a number from 10 to 24 |
| Ages.ConvertFresBreakpoints | readability_tools.py:321-330 | At each of the seven table scores, the ends included, `convert_fres` gives the table age |
| Ages.ConvertFresMonotone | readability_tools.py:321-330 | On the interpolated range a higher reading-ease score never gives a higher age |
| Ages.ConvertFresMidpoint | readability_tools.py:321-330 | A score of 65, halfway between 60 and 70, gives age 14, halfway between 15 and 13 |
| Ages.ConvertAri | readability_tools.py:343-356 | `convert_ari` gives the string `24` above 14 and `5` below 1. In between it gives a number from 5 to 24 |
| Ages.ConvertAriBreakpoints | readability_tools.py:345-354 | At each score 1 to 14, `convert_ari` gives the table age |
| Ages.ConvertAriMonotone | readability_tools.py:345-354 | On the interpolated range a higher ARI never gives a lower age |
| Ages.ConvertGfi | readability_tools.py:367-380 | `convert_gfi` gives the string `24` above 17 and `11` below 6. In between it gives a number from 11 to 24 |
| Ages.ConvertGfiBreakpoints | readability_tools.py:369-378 | At each score 6 to 17, `convert_gfi` gives the table age |
| Ages.ConvertGfiMonotone | readability_tools.py:369-378 | On the interpolated range a higher GFI never gives a lower age |

## Left out

- NLTK: `word_tokenize`, `sent_tokenize`, the Punkt model with its extra abbreviations, and `pos_tag` (readability_tools.py:12-14, 135, 154, 249). These are external. The token, sentence and tag sequences they produce are inputs here.
- Loading `cmudict.dict()` (readability_tools.py:10). It is replaced by an abstract dictionary whose entries are non-empty, as every real entry is. An empty entry would make line 59 raise `IndexError`. Phonemes (`Pronounce.Phoneme`) are likewise non-empty strings, as every real phoneme is. An empty phoneme would make `phoneme[-1]` at line 40 raise `IndexError`.
- The floating-point metric formulas of `fres`, `ari` and `gfi`, and their divisions (readability_tools.py:178-181, 202-205, 263-266). They are float64 arithmetic and divide by zero on text with no words or sentences. Only the integer counts that feed them are modelled.
- Re-tokenizing the joined SMOG sample (readability_tools.py:223-224). It depends on NLTK. `Metrics.Smog` takes the sample's words as input, and the three slices are modelled separately.
- Float64 rounding in SciPy's `interp1d` and in `math.sqrt`. Interpolation is exact over reals.
- Metrics.RoundSqrt: matches `round(math.sqrt(k))` for counts below about 10^14, which covers every realistic polysyllable count. It does not match for huge counts. For `k = r*r + r` with `r = 33554433` (or `67108865`), float64 `math.sqrt(k)` rounds up to exactly `r + 0.5`. Python then rounds to the even `r + 1`, while the exact characterisation gives `r`.
- Unicode: `isalpha`, `isalnum`, `lower`, `\d` and `\w` are modelled on ASCII only.
- Python 3.8 and later, where `statistics.mode` returns the first of several modes and never raises. The model follows the earlier unique-mode behaviour that the `except StatisticsError` branch relies on.
- The numpy 0-d array that `interp1d` returns is modelled as its number.
- Heuristic.Estimate: requires a non-empty word, because `syllables` indexes `word[0]`. `nsyl` only calls it on all-letter words, which are non-empty.
- Metrics.TotalSyllables: requires every word to get a count, because on a stuck token `nsyl` never returns.
- Metrics.ComplexWords: requires every word to get a count, for the same reason.
- Metrics.GfiComplexWords: requires every word to get a count, for the same reason.
- Metrics.Smog: requires every word to get a count, for the same reason.
- Ages.ConvertFresMonotone: states monotonicity on the interpolated range only. Outside it the results are strings, which are not ordered with the numbers.
- Ages.ConvertAriMonotone: the same as for `convert_fres`.
- Ages.ConvertGfiMonotone: the same as for `convert_fres`.

=== FILE: ages.dfy ===
/**
 * The age converters `convert_fres`, `convert_ari` and `convert_gfi`.
 * Each clamps scores outside its table to a fixed age, returned as a
 * string, and otherwise interpolates linearly in a table of score and age
 * pairs, returning a number. The interpolation is SciPy's `interp1d` with
 * its defaults: the points are sorted by score, and a score is placed in
 * the segment found by a left-sided binary search, clipped to the first
 * and last segments. The choice between two bracketing segments does not
 * change the result: the interpolant is continuous, and both segments give
 * the table age at their shared score. Arithmetic here is exact.
 */
module Ages {
  import opened Reals

  /** A converter's output: a clamped age as a string literal, or an interpolated age. */
  datatype Age = Clamped(text: string) | Interp(age: real)

  predicate Increasing(xs: seq<real>) {
    forall i :: 0 < i < |xs| ==> xs[i - 1] < xs[i]
  }

  predicate NonDecreasing(ys: seq<real>) {
    forall i :: 0 < i < |ys| ==> ys[i - 1] <= ys[i]
  }

  lemma {:induction false} IncreasingOrder(xs: seq<real>, i: nat, j: nat)
    requires Increasing(xs) && i < j < |xs|
    ensures xs[i] < xs[j]
    decreases j - i
  {
    if i + 1 < j {
      IncreasingOrder(xs, i + 1, j);
    }
  }

  lemma {:induction false} NonDecreasingOrder(ys: seq<real>, i: nat, j: nat)
    requires NonDecreasing(ys) && i <= j < |ys|
    ensures ys[i] <= ys[j]
    decreases j - i
  {
    if i < j {
      NonDecreasingOrder(ys, i + 1, j);
    }
  }

  /** `r` lies between `a` and `b`, in whichever order they come. */
  predicate Within(r: real, a: real, b: real) {
    (a <= r <= b) || (b <= r <= a)
  }

  /**
   * The segment `interp1d` uses for `v`: the left-sided insertion point of
   * `v` among the sorted scores, clipped to `1 .. |xs| - 1`.
   */
  function Segment(xs: seq<real>, v: real): (j: nat)
    requires |xs| >= 2
    ensures 1 <= j < |xs|
    ensures forall i :: 1 <= i < j ==> xs[i] < v
    ensures j < |xs| - 1 ==> v <= xs[j]
  {
    SegmentFrom(xs, v, 1)
  }

  function SegmentFrom(xs: seq<real>, v: real, j0: nat): (j: nat)
    requires 1 <= j0 < |xs|
    ensures j0 <= j < |xs|
    ensures forall i :: j0 <= i < j ==> xs[i] < v
    ensures j < |xs| - 1 ==> v <= xs[j]
    decreases |xs| - j0
  {
    if j0 == |xs| - 1 || v <= xs[j0] then j0 else SegmentFrom(xs, v, j0 + 1)
  }

  /** A score in range lies inside the segment chosen for it. */
  lemma SegmentBrackets(xs: seq<real>, v: real)
    requires |xs| >= 2 && Increasing(xs)
    requires xs[0] <= v <= xs[|xs| - 1]
    ensures xs[Segment(xs, v) - 1] <= v <= xs[Segment(xs, v)]
  {
  }

  /**
   * `interp1d(xs, ys)(v)` for a score inside the table (outside it SciPy
   * raises an error, which the converters never let happen). The result
   * lies between the ages at the two ends of the segment holding `v`.
   */
  function Interpolate(xs: seq<real>, ys: seq<real>, v: real): (r: real)
    requires |xs| == |ys| >= 2 && Increasing(xs)
    requires xs[0] <= v <= xs[|xs| - 1]
    ensures var j := Segment(xs, v); Within(r, ys[j - 1], ys[j])
    ensures var j := Segment(xs, v);
      (r - ys[j - 1]) * (xs[j] - xs[j - 1]) == (ys[j] - ys[j - 1]) * (v - xs[j - 1])
  {
    var j := Segment(xs, v);
    SegmentBrackets(xs, v);
    InterpolationWithin(xs[j - 1], xs[j], ys[j - 1], ys[j], v);
    Lerp(xs[j - 1], xs[j], ys[j - 1], ys[j], v)
  }

  /**
   * The line through `(x0, y0)` and `(x1, y1)`, evaluated at `v`: `slope * (v - x0) + y0`.
   * The rise from `y0` over the run `x1 - x0` equals the full rise over the run from `x0`.
   */
  function Lerp(x0: real, x1: real, y0: real, y1: real, v: real): (r: real)
    requires x0 < x1
    ensures (r - y0) * (x1 - x0) == (y1 - y0) * (v - x0)
  {
    var dx, dy, u := x1 - x0, y1 - y0, v - x0;
    var slope := dy / dx;
    assert slope * dx == dy;
    assert slope * u * dx == slope * dx * u;
    slope * u + y0
  }

  /** A linear piece from `(x0, y0)` to `(x1, y1)` stays between `y0` and `y1` on `[x0, x1]`. */
  lemma InterpolationWithin(x0: real, x1: real, y0: real, y1: real, v: real)
    requires x0 < x1 && x0 <= v <= x1
    ensures Within(Lerp(x0, x1, y0, y1, v), y0, y1)
  {
    var t := (v - x0) / (x1 - x0);
    UnitQuotient(v - x0, x1 - x0);
    var rise := t * (y1 - y0);
    assert Lerp(x0, x1, y0, y1, v) == rise + y0;
    ScaleWithin(t, y1 - y0, rise);
  }

  lemma UnitQuotient(u: real, dx: real)
    requires dx > 0.0 && 0.0 <= u <= dx
    ensures 0.0 <= u / dx <= 1.0
  {
    var t := u / dx;
    assert t * dx == u;
    if t < 0.0 {
      ScaleRight(dx, t, 0.0);
    } else if t > 1.0 {
      ScaleRight(dx, 1.0, t);
    }
  }

  lemma ScaleWithin(t: real, c: real, p: real)
    requires 0.0 <= t <= 1.0 && p == t * c
    ensures Within(p, 0.0, c)
  {
    if 0.0 <= c {
      ScaleBetween(t, c);
    } else {
      ScaleBetween(t, -c);
      assert t * -c == -(t * c);
    }
  }

  lemma ScaleBetween(t: real, c: real)
    requires 0.0 <= t <= 1.0 && 0.0 <= c
    ensures 0.0 <= t * c <= c
  {
    assert c - t * c == (1.0 - t) * c;
  }

  /** Every table age lies in `[lo, hi]`, so every interpolated age does. */
  lemma InterpolateBounded(xs: seq<real>, ys: seq<real>, v: real, lo: real, hi: real)
    requires |xs| == |ys| >= 2 && Increasing(xs)
    requires xs[0] <= v <= xs[|xs| - 1]
    requires forall i :: 0 <= i < |ys| ==> lo <= ys[i] <= hi
    ensures lo <= Interpolate(xs, ys, v) <= hi
  {
    var j := Segment(xs, v);
    assert lo <= ys[j - 1] <= hi && lo <= ys[j] <= hi;
  }

  /** At a table score the interpolant is exactly the table age. */
  lemma InterpolateAtBreakpoint(xs: seq<real>, ys: seq<real>, i: nat)
    requires |xs| == |ys| >= 2 && Increasing(xs) && i < |xs|
    ensures xs[0] <= xs[i] <= xs[|xs| - 1]
    ensures Interpolate(xs, ys, xs[i]) == ys[i]
  {
    if i > 0 {
      IncreasingOrder(xs, 0, i);
    }
    if i < |xs| - 1 {
      IncreasingOrder(xs, i, |xs| - 1);
    }
    var j := Segment(xs, xs[i]);
    if i == 0 {
      assert j == 1;
    } else {
      if j < i {
        IncreasingOrder(xs, j, i);
      }
      assert j == i;
      var dx := xs[i] - xs[i - 1];
      assert dx > 0.0;
      assert (ys[i] - ys[i - 1]) / dx * dx == ys[i] - ys[i - 1];
    }
  }

  /** A larger score never falls in an earlier segment. */
  lemma SegmentMonotone(xs: seq<real>, v1: real, v2: real)
    requires |xs| >= 2 && Increasing(xs) && v1 <= v2
    ensures Segment(xs, v1) <= Segment(xs, v2)
  {
  }

  /** With non-decreasing ages the interpolant is non-decreasing in the score. */
  lemma InterpolateMonotone(xs: seq<real>, ys: seq<real>, v1: real, v2: real)
    requires |xs| == |ys| >= 2 && Increasing(xs) && NonDecreasing(ys)
    requires xs[0] <= v1 <= v2 <= xs[|xs| - 1]
    ensures Interpolate(xs, ys, v1) <= Interpolate(xs, ys, v2)
  {
    SegmentMonotone(xs, v1, v2);
    if Segment(xs, v1) == Segment(xs, v2) {
      MonotoneInSegment(xs, ys, v1, v2);
    } else {
      MonotoneAcrossSegments(xs, ys, v1, v2);
    }
  }

  lemma MonotoneInSegment(xs: seq<real>, ys: seq<real>, v1: real, v2: real)
    requires |xs| == |ys| >= 2 && Increasing(xs) && NonDecreasing(ys)
    requires xs[0] <= v1 <= v2 <= xs[|xs| - 1]
    requires Segment(xs, v1) == Segment(xs, v2)
    ensures Interpolate(xs, ys, v1) <= Interpolate(xs, ys, v2)
  {
    var j := Segment(xs, v1);
    LerpMonotone(xs[j - 1], xs[j], ys[j - 1], ys[j], v1, v2);
  }

  lemma MonotoneAcrossSegments(xs: seq<real>, ys: seq<real>, v1: real, v2: real)
    requires |xs| == |ys| >= 2 && Increasing(xs) && NonDecreasing(ys)
    requires xs[0] <= v1 <= v2 <= xs[|xs| - 1]
    requires Segment(xs, v1) < Segment(xs, v2)
    ensures Interpolate(xs, ys, v1) <= Interpolate(xs, ys, v2)
  {
    var j1, j2 := Segment(xs, v1), Segment(xs, v2);
    var r1, r2 := Interpolate(xs, ys, v1), Interpolate(xs, ys, v2);
    assert ys[j1 - 1] <= ys[j1] && ys[j2 - 1] <= ys[j2];
    assert r1 <= ys[j1];
    assert ys[j2 - 1] <= r2;
    NonDecreasingOrder(ys, j1, j2 - 1);
  }

  /** A rising line rises. */
  lemma LerpMonotone(x0: real, x1: real, y0: real, y1: real, v1: real, v2: real)
    requires x0 < x1 && y0 <= y1 && v1 <= v2
    ensures Lerp(x0, x1, y0, y1, v1) <= Lerp(x0, x1, y0, y1, v2)
  {
    var slope := (y1 - y0) / (x1 - x0);
    assert slope >= 0.0 by {
      if slope < 0.0 {
        ScaleRight(x1 - x0, slope, 0.0);
      }
    }
    assert slope * (v2 - x0) - slope * (v1 - x0) == slope * (v2 - v1);
    if v1 < v2 && slope > 0.0 {
      ScaleRight(v2 - v1, 0.0, slope);
      assert slope * (v2 - v1) == (v2 - v1) * slope;
    }
  }

  function Negate(ys: seq<real>): (zs: seq<real>)
    ensures |zs| == |ys| && forall i :: 0 <= i < |ys| ==> zs[i] == -ys[i]
  {
    seq(|ys|, i requires 0 <= i < |ys| => -ys[i])
  }

  /** Negating the ages negates the interpolant. */
  lemma InterpolateNegate(xs: seq<real>, ys: seq<real>, v: real)
    requires |xs| == |ys| >= 2 && Increasing(xs)
    requires xs[0] <= v <= xs[|xs| - 1]
    ensures Interpolate(xs, Negate(ys), v) == -Interpolate(xs, ys, v)
  {
    var j := Segment(xs, v);
    var zs := Negate(ys);
    assert zs[j] - zs[j - 1] == -(ys[j] - ys[j - 1]);
    NegateQuotient(ys[j] - ys[j - 1], xs[j] - xs[j - 1]);
  }

  lemma NegateQuotient(a: real, dx: real)
    requires dx != 0.0
    ensures (-a) / dx == -(a / dx)
  {
  }

  /** With non-increasing ages the interpolant is non-increasing in the score. */
  lemma InterpolateAntitone(xs: seq<real>, ys: seq<real>, v1: real, v2: real)
    requires |xs| == |ys| >= 2 && Increasing(xs) && NonDecreasing(Negate(ys))
    requires xs[0] <= v1 <= v2 <= xs[|xs| - 1]
    ensures Interpolate(xs, ys, v2) <= Interpolate(xs, ys, v1)
  {
    InterpolateMonotone(xs, Negate(ys), v1, v2);
    InterpolateNegate(xs, ys, v1);
    InterpolateNegate(xs, ys, v2);
  }

  function Reverse<T>(s: seq<T>): (r: seq<T>)
    ensures |r| == |s| && forall i :: 0 <= i < |s| ==> r[i] == s[|s| - 1 - i]
  {
    seq(|s|, i requires 0 <= i < |s| => s[|s| - 1 - i])
  }

  /** The FRES table as written: ages 10 to 24 against scores 100 down to 30. */
  const FresAges: seq<real> := [10.0, 11.0, 12.0, 13.0, 15.0, 18.0, 24.0]
  const FresScores: seq<real> := [100.0, 90.0, 80.0, 70.0, 60.0, 50.0, 30.0]

  /** The FRES points sorted by score, as `interp1d` sorts them: the table reversed. */
  function FresXs(): (xs: seq<real>)
    ensures xs == [30.0, 50.0, 60.0, 70.0, 80.0, 90.0, 100.0]
    ensures Increasing(xs)
  {
    Reverse(FresScores)
  }

  /** The FRES ages in the order of the sorted scores: the ages reversed, now falling. */
  function FresYs(): (ys: seq<real>)
    ensures ys == [24.0, 18.0, 15.0, 13.0, 12.0, 11.0, 10.0]
    ensures NonDecreasing(Negate(ys))
  {
    Reverse(FresAges)
  }

  /** `convert_fres`. */
  function ConvertFres(v: real): (a: Age)
    ensures v < 30.0 ==> a == Clamped("24")
    ensures v > 100.0 ==> a == Clamped("10")
    ensures 30.0 <= v <= 100.0 ==> a.Interp? && 10.0 <= a.age <= 24.0
  {
    if v < 30.0 then Clamped("24")
    else if v > 100.0 then Clamped("10")
    else
      InterpolateBounded(FresXs(), FresYs(), v, 10.0, 24.0);
      Interp(Interpolate(FresXs(), FresYs(), v))
  }

  /** At every score of its table `convert_fres` gives the table's age, both end scores included. */
  lemma ConvertFresBreakpoints()
    ensures forall i :: 0 <= i < 7 ==> ConvertFres(FresScores[i]) == Interp(FresAges[i])
  {
    forall i | 0 <= i < 7
      ensures ConvertFres(FresScores[i]) == Interp(FresAges[i])
    {
      InterpolateAtBreakpoint(FresXs(), FresYs(), 6 - i);
    }
  }

  /** A higher reading-ease score never gives a higher interpolated age. */
  lemma ConvertFresMonotone(v1: real, v2: real)
    requires 30.0 <= v1 <= v2 <= 100.0
    ensures ConvertFres(v2).age <= ConvertFres(v1).age
  {
    assert NonDecreasing(Negate(FresYs()));
    InterpolateAntitone(FresXs(), FresYs(), v1, v2);
  }

  /** The ARI table: scores 1 to 14 against ages 5 to 24. */
  const AriXs: seq<real> := [1.0, 2.0, 3.0, 4.0, 5.0, 6.0, 7.0, 8.0, 9.0, 10.0, 11.0, 12.0, 13.0, 14.0]
  const AriYs: seq<real> := [5.0, 6.0, 7.0, 9.0, 10.0, 11.0, 12.0, 13.0, 14.0, 15.0, 16.0, 17.0, 18.0, 24.0]

  /** `convert_ari`. */
  function ConvertAri(v: real): (a: Age)
    ensures v > 14.0 ==> a == Clamped("24")
    ensures v < 1.0 ==> a == Clamped("5")
    ensures 1.0 <= v <= 14.0 ==> a.Interp? && 5.0 <= a.age <= 24.0
  {
    if v > 14.0 then Clamped("24")
    else if v < 1.0 then Clamped("5")
    else
      InterpolateBounded(AriXs, AriYs, v, 5.0, 24.0);
      Interp(Interpolate(AriXs, AriYs, v))
  }

  lemma ConvertAriBreakpoints()
    ensures forall i :: 0 <= i < 14 ==> ConvertAri(AriXs[i]) == Interp(AriYs[i])
  {
    forall i | 0 <= i < 14
      ensures ConvertAri(AriXs[i]) == Interp(AriYs[i])
    {
      InterpolateAtBreakpoint(AriXs, AriYs, i);
    }
  }

  /** A higher ARI never gives a lower interpolated age. */
  lemma ConvertAriMonotone(v1: real, v2: real)
    requires 1.0 <= v1 <= v2 <= 14.0
    ensures ConvertAri(v1).age <= ConvertAri(v2).age
  {
    InterpolateMonotone(AriXs, AriYs, v1, v2);
  }

  /** The GFI table: scores 6 to 17 against ages 11 to 24. */
  const GfiXs: seq<real> := [6.0, 7.0, 8.0, 9.0, 10.0, 11.0, 12.0, 13.0, 14.0, 15.0, 16.0, 17.0]
  const GfiYs: seq<real> := [11.0, 12.0, 13.0, 14.0, 15.0, 16.0, 17.0, 19.0, 20.0, 21.0, 23.0, 24.0]

  /** `convert_gfi`. */
  function ConvertGfi(v: real): (a: Age)
    ensures v > 17.0 ==> a == Clamped("24")
    ensures v < 6.0 ==> a == Clamped("11")
    ensures 6.0 <= v <= 17.0 ==> a.Interp? && 11.0 <= a.age <= 24.0
  {
    if v > 17.0 then Clamped("24")
    else if v < 6.0 then Clamped("11")
    else
      InterpolateBounded(GfiXs, GfiYs, v, 11.0, 24.0);
      Interp(Interpolate(GfiXs, GfiYs, v))
  }

  lemma ConvertGfiBreakpoints()
    ensures forall i :: 0 <= i < 12 ==> ConvertGfi(GfiXs[i]) == Interp(GfiYs[i])
  {
    forall i | 0 <= i < 12
      ensures ConvertGfi(GfiXs[i]) == Interp(GfiYs[i])
    {
      InterpolateAtBreakpoint(GfiXs, GfiYs, i);
    }
  }

  /** A higher GFI never gives a lower interpolated age. */
  lemma ConvertGfiMonotone(v1: real, v2: real)
    requires 6.0 <= v1 <= v2 <= 17.0
    ensures ConvertGfi(v1).age <= ConvertGfi(v2).age
  {
    InterpolateMonotone(GfiXs, GfiYs, v1, v2);
  }

  /** Halfway between the FRES scores 60 and 70 the age is halfway between 15 and 13. */
  lemma ConvertFresMidpoint()
    ensures ConvertFres(65.0) == Interp(14.0)
  {
    assert Segment(FresXs(), 65.0) == 3;
  }
}

=== FILE: heuristic.dfy ===
/**
 * The fallback syllable estimator `syllables`: it counts the starts of runs
 * of the vowels `aeiouy` in the lower-cased word, then applies the suffix
 * adjustments for `e`, `le`, `sm` and `thm` one after another (they stack),
 * and finally raises a count of exactly zero to one.
 */
module Heuristic {
  import opened Text

  predicate IsVowel(c: char) {
    c in "aeiouy"
  }

  /** Position `i` opens a vowel run: a vowel that is first or follows a non-vowel. */
  predicate StartsRun(w: string, i: nat)
    requires i < |w|
  {
    IsVowel(w[i]) && (i == 0 || !IsVowel(w[i - 1]))
  }

  /** Number of positions below `n` that open a vowel run. */
  function RunStarts(w: string, n: nat): nat
    requires n <= |w|
  {
    if n == 0 then 0 else RunStarts(w, n - 1) + (if StartsRun(w, n - 1) then 1 else 0)
  }

  /** Length of the run of vowels that ends `w`. */
  function TrailingVowels(w: string): (k: nat)
    ensures k <= |w|
    ensures forall i :: |w| - k <= i < |w| ==> IsVowel(w[i])
    ensures k < |w| ==> !IsVowel(w[|w| - k - 1])
  {
    if |w| > 0 && IsVowel(w[|w| - 1]) then TrailingVowels(w[..|w| - 1]) + 1 else 0
  }

  /**
   * Number of maximal vowel runs in `w`, counted by peeling runs off the end:
   * a reference definition independent of the position-by-position scan.
   */
  function VowelRuns(w: string): nat
    decreases |w|
  {
    if |w| == 0 then 0
    else if IsVowel(w[|w| - 1]) then 1 + VowelRuns(w[..|w| - TrailingVowels(w)])
    else VowelRuns(w[..|w| - 1])
  }

  /** The net effect of the four suffix rules, applied in order. */
  function SuffixAdjustment(w: string): int {
    (if EndsWith(w, "e") then -1 else 0)
    + (if EndsWith(w, "le") then 1 else 0)
    + (if EndsWith(w, "sm") then 1 else 0)
    + (if EndsWith(w, "thm") then 1 else 0)
  }

  /**
   * What `syllables` returns for a non-empty word. The count can only reach
   * zero, never go below it, because a word ending in `e` has at least one
   * vowel run; hence the bump from zero leaves every result positive.
   */
  function Estimate(word: string): (r: int)
    requires |word| > 0
    ensures r >= 1
  {
    var w := Lower(word);
    var count := RunStarts(w, |w|) + SuffixAdjustment(w);
    RunStartsCountRuns(w);
    if count == 0 then 1 else count
  }

  /** The loop of `syllables`, checked against `Estimate`. */
  method Syllables(word: string) returns (count: int)
    requires |word| > 0
    ensures count >= 1
    ensures count == Estimate(word)
  {
    var w := Lower(word);
    count := 0;
    if IsVowel(w[0]) {
      count := count + 1;
    }
    var index := 1;
    while index < |w|
      invariant 1 <= index <= |w|
      invariant count == RunStarts(w, index)
    {
      if IsVowel(w[index]) && !IsVowel(w[index - 1]) {
        count := count + 1;
      }
      index := index + 1;
    }
    assert count == RunStarts(w, |w|);
    ghost var raw := count + SuffixAdjustment(w);
    if EndsWith(w, "e") {
      count := count - 1;
    }
    if EndsWith(w, "le") {
      count := count + 1;
    }
    if EndsWith(w, "sm") {
      count := count + 1;
    }
    if EndsWith(w, "thm") {
      count := count + 1;
    }
    assert count == raw;
    if count == 0 {
      count := count + 1;
    }
    assert count == Estimate(word);
  }

  /** Whether a position opens a run depends only on the characters up to it. */
  lemma {:induction false} RunStartsPrefix(w: string, n: nat, m: nat)
    requires m <= n <= |w|
    ensures RunStarts(w, m) == RunStarts(w[..n], m)
  {
    if m > 0 {
      RunStartsPrefix(w, n, m - 1);
      assert StartsRun(w, m - 1) == StartsRun(w[..n], m - 1);
    }
  }

  /** Inside a vowel run no new run opens. */
  lemma {:induction false} RunStartsInsideRun(w: string, p: nat, n: nat)
    requires p < n <= |w|
    requires forall i :: p <= i < n ==> IsVowel(w[i])
    ensures RunStarts(w, n) == RunStarts(w, p + 1)
  {
    if n > p + 1 {
      RunStartsInsideRun(w, p, n - 1);
      assert !StartsRun(w, n - 1);
    }
  }

  /** Counting run starts left to right counts the vowel runs. */
  lemma {:induction false} RunStartsCountRuns(w: string)
    ensures RunStarts(w, |w|) == VowelRuns(w)
    decreases |w|
  {
    if |w| == 0 {
    } else if IsVowel(w[|w| - 1]) {
      var p := |w| - TrailingVowels(w);
      RunStartsInsideRun(w, p, |w|);
      assert StartsRun(w, p);
      RunStartsPrefix(w, p, p);
      RunStartsCountRuns(w[..p]);
    } else {
      assert !StartsRun(w, |w| - 1);
      RunStartsPrefix(w, |w| - 1, |w| - 1);
      RunStartsCountRuns(w[..|w| - 1]);
    }
  }

  /** A word has a vowel run exactly when it has a vowel. */
  lemma {:induction false} VowelRunsPositive(w: string)
    ensures VowelRuns(w) > 0 <==> exists i :: 0 <= i < |w| && IsVowel(w[i])
    decreases |w|
  {
    if |w| > 0 && !IsVowel(w[|w| - 1]) {
      var u := w[..|w| - 1];
      VowelRunsPositive(u);
      assert forall i :: 0 <= i < |u| ==> u[i] == w[i];
    }
  }

  /**
   * The suffix rules stack: a word ending in `le` loses one for the `e` and
   * gains one back, `sm` and `thm` each add one, and no word can match both
   * of those, so the net adjustment is always -1, 0 or +1.
   */
  lemma SuffixRulesStack(w: string)
    ensures EndsWith(w, "le") ==> SuffixAdjustment(w) == 0
    ensures EndsWith(w, "e") && !EndsWith(w, "le") ==> SuffixAdjustment(w) == -1
    ensures EndsWith(w, "sm") || EndsWith(w, "thm") ==> SuffixAdjustment(w) == 1
    ensures -1 <= SuffixAdjustment(w) <= 1
  {
    if EndsWith(w, "le") {
      assert w[|w| - 1] == 'e';
      assert EndsWith(w, "e");
    }
    if EndsWith(w, "thm") {
      assert w[|w| - 2] == 'h' && w[|w| - 1] == 'm';
    }
    if EndsWith(w, "sm") {
      assert w[|w| - 1] == 'm';
    }
  }

  /** A final `le` cancels the `e` rule: `table` keeps both of its runs. */
  lemma EstimateTable()
    ensures Estimate("table") == 2
  {
    assert Lower("table") == "table";
    assert RunStarts("table", 5) == 2;
  }

  /** A final `thm` adds one to the single run of `rhythm`. */
  lemma EstimateRhythm()
    ensures Estimate("rhythm") == 2
  {
    var w := "rhythm";
    assert Lower(w) == w;
    assert RunStarts(w, 3) == 1;
    assert RunStarts(w, 6) == 1;
    assert SuffixAdjustment(w) == 1 by {
      assert w[3..] == "thm";
      assert w[4..] == "hm" != "sm";
      assert w[5..] != "e";
    }
  }

  /** A final `sm` adds one to the single run of `prism`. */
  lemma EstimatePrism()
    ensures Estimate("prism") == 2
  {
    var w := "prism";
    assert Lower(w) == w;
    assert RunStarts(w, 2) == 0;
    assert RunStarts(w, 5) == 1;
    assert SuffixAdjustment(w) == 1 by {
      assert w[2..] == "ism" != "thm";
      assert w[3..] == "sm";
      assert w[4..] != "e";
    }
  }

  /** A lone vowel run cancelled by a final `e` is raised from zero to one. */
  lemma EstimateRaisedFromZero()
    ensures Estimate("the") == 1
  {
    assert Lower("the") == "the";
    assert RunStarts("the", 3) == 1;
  }

  /** Without the dictionary, `separate` is estimated at three syllables. */
  lemma EstimateSeparate()
    ensures Estimate("separate") == 3
  {
    SeparateParts();
  }

  lemma SeparateParts()
    ensures Lower("separate") == "separate"
    ensures RunStarts("separate", 8) == 4
    ensures SuffixAdjustment("separate") == -1
  {
    var w := "separate";
    assert Lower(w) == w;
    assert RunStarts(w, 1) == 0;
    assert RunStarts(w, 2) == 1;
    assert RunStarts(w, 3) == 1;
    assert RunStarts(w, 4) == 2;
    assert RunStarts(w, 5) == 2;
    assert RunStarts(w, 6) == 3;
    assert RunStarts(w, 7) == 3;
    assert RunStarts(w, 8) == 4;
    assert w[7..] == "e";
    assert w[6..] == "te" != "le";
    assert w[5..] == "ate" != "thm";
    assert w[6..] != "sm";
  }

}

=== FILE: metrics.dfy ===
/**
 * The integer parts of the metrics: the syllable and character totals that
 * feed `fres` and `ari`, the difficult-word counts of `smog` and
 * `get_complex_words_count`, the complex-word test of `gfi` over tagged
 * words, and the sentence sampling and square-root rounding of `smog`.
 */
module Metrics {
  import opened Text
  import opened Pythonic
  import opened Pronounce
  import opened Nsyl
  import opened Tokens
  import opened Reals

  /** The loop of `fres` that adds up `nsyl` over the words. */
  method TotalSyllables(d: Dict, words: seq<string>) returns (total: nat)
    requires AllResolve(d, words)
    ensures SumSyl(d, words) == Count(total)
    ensures Voiced(d) ==> total >= |words|
  {
    total := 0;
    var i := 0;
    while i < |words|
      invariant 0 <= i <= |words|
      invariant SumSyl(d, words[..i]) == Count(total)
    {
      var n := NSyl(d, words[i]);
      SyllableStep(d, words, i);
      total := total + n.n;
      i := i + 1;
    }
    assert words[..|words|] == words;
    if Voiced(d) {
      SumAtLeastLength(d, words);
    }
  }

  /** Adding the next resolved word to the running sum adds its count. */
  lemma SyllableStep(d: Dict, words: seq<string>, i: nat)
    requires i < |words| && AllResolve(d, words)
    ensures NSyl(d, words[i]).Count?
    ensures SumSyl(d, words[..i + 1]) == Plus(SumSyl(d, words[..i]), NSyl(d, words[i]))
  {
    var w := words[i];
    assert words[..i + 1] == words[..i] + [w];
    SumSylConcat(d, words[..i], [w]);
    SumCons(d, w, []);
    assert [w] + [] == [w];
  }

  lemma {:induction false} TotalLenConcat(a: seq<string>, b: seq<string>)
    ensures TotalLen(a + b) == TotalLen(a) + TotalLen(b)
    decreases |a|
  {
    if |a| == 0 {
      assert a + b == b;
    } else {
      assert (a + b)[1..] == a[1..] + b;
      TotalLenConcat(a[1..], b);
    }
  }

  /** Every string in `ws` is non-empty, so the total is at least their number. */
  lemma {:induction false} TotalLenAtLeastCount(ws: seq<string>)
    requires forall i :: 0 <= i < |ws| ==> |ws[i]| > 0
    ensures TotalLen(ws) >= |ws|
    decreases |ws|
  {
    if |ws| > 0 {
      assert forall i :: 0 <= i < |ws[1..]| ==> ws[1..][i] == ws[i + 1];
      TotalLenAtLeastCount(ws[1..]);
    }
  }

  /** The loop of `ari` that adds up the lengths of the words. */
  method TotalChars(words: seq<string>) returns (total: nat)
    ensures total == TotalLen(words)
    ensures (forall i :: 0 <= i < |words| ==> |words[i]| > 0) ==> total >= |words|
  {
    total := 0;
    var i := 0;
    while i < |words|
      invariant 0 <= i <= |words|
      invariant total == TotalLen(words[..i])
    {
      TotalLenConcat(words[..i], [words[i]]);
      assert words[..i + 1] == words[..i] + [words[i]];
      assert TotalLen([words[i]]) == |words[i]|;
      total := total + |words[i]|;
      i := i + 1;
    }
    assert words[..|words|] == words;
    if forall i :: 0 <= i < |words| ==> |words[i]| > 0 {
      TotalLenAtLeastCount(words);
    }
  }

  /** The words `ari` measures have at least one character each. */
  lemma KeptCharsAtLeastWords(tokens: seq<string>)
    ensures TotalLen(WordsList(tokens)) >= WordCount(tokens)
  {
    TotalLenAtLeastCount(WordsList(tokens));
  }

  /** A word with three or more syllables. */
  predicate Difficult(d: Dict, w: string) {
    NSyl(d, w).Count? && NSyl(d, w).n >= 3
  }

  /** The number of difficult words, as a filter. */
  function ComplexCount(d: Dict, words: seq<string>): (n: nat)
    ensures n <= |words|
  {
    |Filter((w: string) => Difficult(d, w), words)|
  }

  /** The loop of `get_complex_words_count` and of `smog` that counts difficult words. */
  method ComplexWords(d: Dict, words: seq<string>) returns (count: nat)
    requires AllResolve(d, words)
    ensures count == ComplexCount(d, words)
    ensures count <= |words|
  {
    count := CountKept((w: string) => Difficult(d, w), words);
  }

  /** A word with its part-of-speech tag. */
  datatype Tagged = Tagged(word: string, tag: string)

  function Words(tagged: seq<Tagged>): (ws: seq<string>)
    ensures |ws| == |tagged|
    ensures forall i :: 0 <= i < |ws| ==> ws[i] == tagged[i].word
  {
    seq(|tagged|, i requires 0 <= i < |tagged| => tagged[i].word)
  }

  /**
   * The complex-word test of `gfi`: three or more syllables, a tag that is
   * not a proper noun, no hyphen, and not a three-syllable verb form ending
   * in `es`, `ed` or `ing`.
   */
  predicate GfiComplex(d: Dict, t: Tagged) {
    && Difficult(d, t.word)
    && !Contains(t.tag, "NNP")
    && '-' !in t.word
    && !(NSyl(d, t.word) == Count(3) && Contains(t.tag, "VB")
         && (EndsWith(t.word, "es") || EndsWith(t.word, "ed") || EndsWith(t.word, "ing")))
  }

  function GfiCount(d: Dict, tagged: seq<Tagged>): nat {
    |Filter((t: Tagged) => GfiComplex(d, t), tagged)|
  }

  /** The loop of `gfi` that counts complex words. */
  method GfiComplexWords(d: Dict, tagged: seq<Tagged>) returns (count: nat)
    requires AllResolve(d, Words(tagged))
    ensures count == GfiCount(d, tagged)
    ensures count <= ComplexCount(d, Words(tagged))
  {
    count := CountKept((t: Tagged) => GfiComplex(d, t), tagged);
    GfiBounds(d, tagged);
  }

  /**
   * For the same words, the `gfi` complex count is at most the difficult
   * count of `get_complex_words_count`, which is at most the word count.
   */
  lemma GfiBounds(d: Dict, tagged: seq<Tagged>)
    ensures GfiCount(d, tagged) <= ComplexCount(d, Words(tagged)) <= |tagged|
  {
    FilterPointwiseBound((t: Tagged) => GfiComplex(d, t), (w: string) => Difficult(d, w), tagged, Words(tagged));
  }


  /** `sentence_list[0:9]`: the first nine sentences, or all of them if fewer. */
  function SmogStart<T>(s: seq<T>): (r: seq<T>)
    ensures |r| == if |s| < 9 then |s| else 9
    ensures r == s[..|r|]
  {
    Slice(s, 0, 9)
  }

  /**
   * `sentence_list[floor(n/2 - 5):round(n/2 - 5)]`: the two bounds differ
   * only for odd `n` whose floor is odd, so the slice has at most one
   * sentence; with the wrap-around of negative bounds it has one exactly
   * when `n` is 5, 13, 17, 21, ….
   */
  function SmogMiddle<T>(s: seq<T>): (r: seq<T>)
    ensures |r| <= 1
    ensures |s| % 2 == 0 ==> r == []
    ensures |r| == 1 <==> |s| % 4 == 1 && |s| != 1 && |s| != 9
    ensures |r| == 1 && |s| >= 11 ==> r == [s[(|s| - 11) / 2]]
    ensures |s| == 5 ==> r == [s[2]]
  {
    var n := |s|;
    var lo := (n - 10) / 2;
    var hi := RoundHalfEven(n - 10, 2);
    MiddleBounds(n);
    Slice(s, lo, hi)
  }

  /** The two bounds of the middle slice. */
  lemma MiddleBounds(n: nat)
    ensures n % 2 == 0 ==> RoundHalfEven(n - 10, 2) == (n - 10) / 2
    ensures n % 2 == 1 ==> (n - 10) / 2 == (n - 11) / 2
    ensures n % 2 == 1 ==> RoundHalfEven(n - 10, 2) == (n - 10) / 2 + (if n % 4 == 1 then 1 else 0)
  {
    var r := RoundHalfEven(n - 10, 2);
    var q := n / 4;
    assert n == 4 * q + n % 4;
    if n % 2 == 0 {
      var m := n / 2;
      assert n - 10 == 2 * (m - 5) && (n - 10) / 2 == m - 5;
      NearestHalfEvenUnique(n - 10, 2, r, m - 5);
    } else if n % 4 == 1 {
      assert n - 10 == 2 * (2 * q - 5) + 1 && (n - 10) / 2 == 2 * q - 5;
      assert n - 11 == 2 * (2 * q - 5) && (n - 11) / 2 == 2 * q - 5;
      assert (2 * q - 4) % 2 == 0;
      NearestHalfEvenUnique(n - 10, 2, r, 2 * q - 4);
    } else {
      assert n - 10 == 2 * (2 * q - 4) + 1 && (n - 10) / 2 == 2 * q - 4;
      assert n - 11 == 2 * (2 * q - 4) && (n - 11) / 2 == 2 * q - 4;
      assert (2 * q - 4) % 2 == 0;
      NearestHalfEvenUnique(n - 10, 2, r, 2 * q - 4);
    }
  }

  /**
   * `sentence_list[n - 10:n]`: the last ten sentences when there are ten or
   * more; below ten the start wraps around, giving the last `10 - n`
   * sentences for `n` from 5 to 9 and all of them for `n` up to 5.
   */
  function SmogEnd<T>(s: seq<T>): (r: seq<T>)
    ensures |r| == if |s| >= 10 then 10 else if |s| >= 5 then 10 - |s| else |s|
    ensures r == s[|s| - |r|..]
  {
    Slice(s, |s| - 10, |s|)
  }

  /** With thirteen sentences the middle sample is the second sentence. */
  lemma SmogSampleOfThirteen<T>(s: seq<T>)
    requires |s| == 13
    ensures SmogStart(s) == s[..9]
    ensures SmogMiddle(s) == [s[1]]
    ensures SmogEnd(s) == s[3..]
  {
  }

  /**
   * `r` is `round(sqrt(k))`: zero for zero, and otherwise the `r >= 1` with
   * `r*r - r < k <= r*r + r`, the integers within one half of `r` once squared.
   */
  predicate IsRoundedRoot(k: nat, r: nat) {
    (r == 0 && k == 0) || (r >= 1 && r * r - r < k <= r * r + r)
  }

  /** Search upwards from `r` for the rounded square root of `k`. */
  function RootSearch(k: nat, r: nat): (s: nat)
    requires r >= 1 && r * r - r < k
    ensures IsRoundedRoot(k, s)
    decreases k - r
  {
    if k <= r * r + r then r
    else
      assert (r + 1) * (r + 1) - (r + 1) == r * r + r;
      RootSearch(k, r + 1)
  }

  /** `round(math.sqrt(k))`, computed exactly. */
  function RoundSqrt(k: nat): (r: nat)
    ensures IsRoundedRoot(k, r)
  {
    if k == 0 then 0 else RootSearch(k, 1)
  }

  /** Each count has exactly one rounded square root. */
  lemma RoundedRootUnique(k: nat, r1: nat, r2: nat)
    requires IsRoundedRoot(k, r1) && IsRoundedRoot(k, r2)
    ensures r1 == r2
  {
    if r1 < r2 {
      RoundedRootOrder(k, r1, r2);
    } else if r2 < r1 {
      RoundedRootOrder(k, r2, r1);
    }
  }

  /** The count ranges of two different roots do not overlap, and a larger root has the larger counts. */
  lemma RoundedRootOrder(k: nat, a: nat, b: nat)
    requires a < b && IsRoundedRoot(k, a)
    ensures !IsRoundedRoot(k, b)
  {
    StepSquares(a, b);
  }

  lemma StepSquares(a: nat, b: nat)
    requires a < b
    ensures b * b - b >= a * a + a
  {
    MulMono(a + 1, b, b);
    MulMono(a + 1, b, a + 1);
    assert (a + 1) * (a + 1) - (a + 1) == a * a + a;
  }

  /** The rounded square root never decreases as the count grows. */
  lemma RoundSqrtMonotone(k1: nat, k2: nat)
    requires k1 <= k2
    ensures RoundSqrt(k1) <= RoundSqrt(k2)
  {
    var r1, r2 := RoundSqrt(k1), RoundSqrt(k2);
    if r2 < r1 {
      StepSquares(r2, r1);
    }
  }

  /** Between consecutive integers there is room for a quarter. */
  lemma QuarterGap(a: int, b: int)
    ensures a as real + 0.25 <= b as real <==> a < b
    ensures b as real <= a as real + 0.25 <==> b <= a
  {
  }

  /** Two non-negative reals compare as their squares do. */
  lemma SquareOrder(a: real, b: real)
    requires 0.0 <= a && 0.0 <= b
    ensures a <= b <==> a * a <= b * b
  {
    assert b * b - a * a == (b + a) * (b - a);
    if a < b {
      ScaleRight(b + a, 0.0, b - a);
    } else if b < a {
      ScaleRight(b + a, b - a, 0.0);
    }
  }

  /**
   * The integer characterisation agrees with rounding the real square root:
   * `r` is within one half of `sqrt(k)`. Because `(r + 1/2)^2` is never an
   * integer, over exact reals no count lies at a tie and Python's
   * ties-to-even rule never comes into play. (Float64 `math.sqrt` can round
   * onto a tie for counts beyond about 10^15.)
   */
  lemma RoundedRootIsNearest(k: nat, r: nat, x: real)
    requires 0.0 <= x && x * x == k as real
    ensures IsRoundedRoot(k, r) <==> r as real - 0.5 <= x <= r as real + 0.5
  {
    var rr := r as real;
    SquareOrder(x, rr + 0.5);
    HalfAboveSquare(r);
    QuarterGap(r * r + r, k);
    if r == 0 {
      if k == 0 {
        assert x * x == 0.0;
      }
    } else {
      SquareOrder(rr - 0.5, x);
      HalfBelowSquare(r);
      QuarterGap(r * r - r, k);
    }
  }

  /** The square of `r + 1/2` sits a quarter above the integer `r^2 + r`. */
  lemma HalfAboveSquare(r: nat)
    ensures (r as real + 0.5) * (r as real + 0.5) == (r * r + r) as real + 0.25
  {
    var rr := r as real;
    assert (rr + 0.5) * (rr + 0.5) == rr * rr + rr + 0.25;
    assert (r * r + r) as real == rr * rr + rr;
  }

  /** The square of `r - 1/2` sits a quarter above the integer `r^2 - r`. */
  lemma HalfBelowSquare(r: nat)
    ensures (r as real - 0.5) * (r as real - 0.5) == (r * r - r) as real + 0.25
  {
    var rr := r as real;
    assert (rr - 0.5) * (rr - 0.5) == rr * rr - rr + 0.25;
    assert (r * r - r) as real == rr * rr - rr;
  }

  /** `smog` over the words of its sample: the rounded root of the difficult count, plus three. */
  method Smog(d: Dict, words: seq<string>) returns (score: nat)
    requires AllResolve(d, words)
    ensures score >= 3
    ensures IsRoundedRoot(ComplexCount(d, words), score - 3)
  {
    var difficult := ComplexWords(d, words);
    score := RoundSqrt(difficult) + 3;
  }

  /** Adding words to a sample never lowers its SMOG score. */
  lemma SmogMonotone(d: Dict, a: seq<string>, b: seq<string>)
    ensures ComplexCount(d, a) <= ComplexCount(d, a + b)
    ensures RoundSqrt(ComplexCount(d, a)) + 3 <= RoundSqrt(ComplexCount(d, a + b)) + 3
  {
    FilterConcat((w: string) => Difficult(d, w), a, b);
    RoundSqrtMonotone(ComplexCount(d, a), ComplexCount(d, a + b));
  }
}

=== FILE: nsyl.dfy ===
/**
 * `nsyl`, the syllable count of one token. All-letter tokens go to the
 * pronunciation dictionary (with three exact-case overrides when the word is
 * found, and three brand names or the heuristic estimator when it is not);
 * tokens with hyphens are split and summed, stripped and retried, or counted
 * as one; everything else counts as one.
 *
 * The trailing-hyphen branch retries on `word.strip('-')`, which is the same
 * token again unless the token starts or ends with a hyphen; for such a
 * token (`ab--cd`) the recursion never ends and no count is returned
 * (CPython eventually raises `RecursionError`). That outcome is `Diverges`.
 */
module Nsyl {
  import opened Text
  import opened Heuristic
  import opened Pronounce

  datatype Syl = Count(n: nat) | Diverges

  /** `a + b` where either operand may be a call that never returns. */
  function Plus(a: Syl, b: Syl): Syl {
    if a.Count? && b.Count? then Count(a.n + b.n) else Diverges
  }

  /** `re.search("[^-a-zA-Z]", w)`: some character is neither a letter nor a hyphen. */
  predicate HasForeign(w: string) {
    exists i :: 0 <= i < |w| && w[i] != '-' && !IsLetter(w[i])
  }

  /** `re.search("[a-zA-Z]+\-[a-zA-Z]+", w)`: a hyphen with a letter on either side. */
  predicate HasJoiningHyphen(w: string) {
    exists i :: 0 < i < |w| - 1 && JoinsAt(w, i)
  }

  predicate JoinsAt(w: string, i: nat)
    requires 0 < i < |w| - 1
  {
    w[i] == '-' && IsLetter(w[i - 1]) && IsLetter(w[i + 1])
  }

  /**
   * `re.search("[a-zA-Z]+\-\B", w)`: a hyphen after a letter with no word
   * boundary behind it, that is, at the end or before a non-word character.
   */
  predicate HasTrailingHyphen(w: string) {
    exists i :: 0 < i < |w| && w[i] == '-' && IsLetter(w[i - 1]) && (i == |w| - 1 || !IsWordChar(w[i + 1]))
  }

  /** The count of an all-letter word: dictionary, overrides, names, heuristic. */
  function WordSyllables(d: Dict, word: string): nat
    requires IsAlpha(word)
  {
    var key := Lower(word);
    if key in d then
      if word == "US" then 2
      else if word == "us" then 1
      else if word == "separate" then 2
      else Resolve(VariantCounts(d[key]))
    else if key == "facebook" then 2
    else if key == "thefacebook" then 3
    else if key == "tumblr" then 2
    else Estimate(word)
  }

  /** `nsyl(word)`. */
  function NSyl(d: Dict, word: string): Syl
    decreases |word|, 0
  {
    if IsAlpha(word) then Count(WordSyllables(d, word))
    else if '-' in word then
      if HasForeign(word) then Count(1)
      else if HasJoiningHyphen(word) then SumSyl(d, Split(word, '-'))
      else if HasTrailingHyphen(word) then
        var s := Strip(word, '-');
        if |s| < |word| then NSyl(d, s) else Diverges
      else Count(1)
    else Count(1)
  }

  /** The sum of `nsyl` over `words`, evaluated left to right. */
  function SumSyl(d: Dict, words: seq<string>): Syl
    decreases TotalLen(words), 1, |words|
  {
    if |words| == 0 then Count(0)
    else Plus(NSyl(d, words[0]), SumSyl(d, words[1..]))
  }

  /** `nsyl` returns on every token of `words`. */
  predicate AllResolve(d: Dict, words: seq<string>) {
    forall i :: 0 <= i < |words| ==> NSyl(d, words[i]).Count?
  }

  /** A hyphen with letters somewhere before it and somewhere after it. */
  predicate HasInnerHyphen(w: string) {
    exists i, j, k :: 0 <= i < j < k < |w| && IsLetter(w[i]) && w[j] == '-' && IsLetter(w[k])
  }

  /**
   * The tokens on which `nsyl` never returns: letters and hyphens only,
   * no single hyphen between two letters, yet letters on both sides of
   * some hyphen, such as `ab--cd` or `-ab--cd-`.
   */
  predicate Stuck(w: string) {
    !HasForeign(w) && !HasJoiningHyphen(w) && HasInnerHyphen(w)
  }

  /** A token without a hyphen always gets a count. */
  lemma NoHyphenResolves(d: Dict, w: string)
    requires '-' !in w
    ensures NSyl(d, w).Count?
  {
  }

  /** Tokens without hyphens, such as the pieces of a split, sum to a count. */
  lemma {:induction false} SumNoHyphenResolves(d: Dict, ws: seq<string>)
    requires forall i :: 0 <= i < |ws| ==> '-' !in ws[i]
    ensures SumSyl(d, ws).Count?
  {
    if |ws| > 0 {
      NoHyphenResolves(d, ws[0]);
      SumNoHyphenResolves(d, ws[1..]);
    }
  }

  /** Tokens with no letters and no hyphen, and hyphenated tokens with foreign characters, count as one. */
  lemma OpaqueTokens(d: Dict, w: string)
    ensures !IsAlpha(w) && '-' !in w ==> NSyl(d, w) == Count(1)
    ensures '-' in w && HasForeign(w) ==> NSyl(d, w) == Count(1)
    ensures NSyl(d, "") == Count(1)
  {
  }

  /**
   * The exact-case overrides apply only to words the dictionary holds:
   * `US` is 2 and `us` is 1 when `us` is an entry, `separate` is 2 when it
   * is an entry; when it is not, `separate` falls to the heuristic, 3.
   */
  lemma OverridesNeedEntry(d: Dict)
    ensures "us" in d ==> NSyl(d, "US") == Count(2) && NSyl(d, "us") == Count(1)
    ensures "separate" in d ==> NSyl(d, "separate") == Count(2)
    ensures "separate" !in d ==> NSyl(d, "separate") == Count(3)
  {
    assert Lower("US") == "us" && Lower("us") == "us";
    assert Lower("separate") == "separate";
    OverrideWord(d, "US", "us");
    OverrideWord(d, "us", "us");
    OverrideWord(d, "separate", "separate");
    EstimateSeparate();
  }

  lemma OverrideWord(d: Dict, w: string, key: string)
    requires IsAlpha(w) && Lower(w) == key
    ensures key in d && w == "US" ==> NSyl(d, w) == Count(2)
    ensures key in d && w == "us" ==> NSyl(d, w) == Count(1)
    ensures key in d && w == "separate" ==> NSyl(d, w) == Count(2)
    ensures key !in d && key == "separate" ==> NSyl(d, w) == Count(Estimate(w))
  {
  }

  /** The brand names absent from the dictionary are matched in any letter case. */
  lemma NameOverrides(d: Dict)
    ensures "facebook" !in d ==> NSyl(d, "FaceBook") == Count(2)
    ensures "thefacebook" !in d ==> NSyl(d, "TheFacebook") == Count(3)
    ensures "tumblr" !in d ==> NSyl(d, "Tumblr") == Count(2)
  {
    NameOverride(d, "FaceBook", "facebook");
    NameOverride(d, "TheFacebook", "thefacebook");
    NameOverride(d, "Tumblr", "tumblr");
  }

  lemma NameOverride(d: Dict, w: string, key: string)
    requires IsAlpha(w) && Lower(w) == key
    ensures key !in d ==> NSyl(d, w) == Count(WordSyllables(d, w))
    ensures key !in d && key == "facebook" ==> WordSyllables(d, w) == 2
    ensures key !in d && key == "thefacebook" ==> WordSyllables(d, w) == 3
    ensures key !in d && key == "tumblr" ==> WordSyllables(d, w) == 2
  {
  }

  /** Any other all-letter word absent from the dictionary gets exactly the heuristic estimate. */
  lemma AbsentWordIsEstimated(d: Dict, w: string)
    requires IsAlpha(w) && Lower(w) !in d
    requires Lower(w) != "facebook" && Lower(w) != "thefacebook" && Lower(w) != "tumblr"
    ensures NSyl(d, w) == Count(Estimate(w))
  {
  }

  /**
   * An all-letter word found in the dictionary, other than the three
   * overrides, gets the count of its only variant, else the unique mode of
   * its variants' counts, else their mean rounded half to even.
   */
  lemma DictionaryWordCount(d: Dict, w: string)
    requires IsAlpha(w) && Lower(w) in d
    requires w != "US" && w != "us" && w != "separate"
    ensures NSyl(d, w).Count?
    ensures |d[Lower(w)]| == 1 ==> NSyl(d, w).n == StressCount(d[Lower(w)][0])
    ensures var cs := VariantCounts(d[Lower(w)]);
      (exists v :: IsUniqueMode(cs, v)) ==> IsUniqueMode(cs, NSyl(d, w).n)
    ensures var cs := VariantCounts(d[Lower(w)]);
      (forall v :: !IsUniqueMode(cs, v)) ==> Pythonic.NearestHalfEven(Sum(cs), |cs|, NSyl(d, w).n)
  {
    var cs := VariantCounts(d[Lower(w)]);
    if |cs| == 1 {
      ResolveAgreeing(cs, cs[0]);
    }
  }

  lemma PlusAssoc(a: Syl, b: Syl, c: Syl)
    ensures Plus(Plus(a, b), c) == Plus(a, Plus(b, c))
  {
  }

  /** Summing over a concatenation adds the two sums. */
  lemma {:induction false} SumSylConcat(d: Dict, a: seq<string>, b: seq<string>)
    ensures SumSyl(d, a + b) == Plus(SumSyl(d, a), SumSyl(d, b))
  {
    if |a| == 0 {
      assert a + b == b;
    } else {
      assert (a + b)[1..] == a[1..] + b;
      SumSylConcat(d, a[1..], b);
      PlusAssoc(NSyl(d, a[0]), SumSyl(d, a[1..]), SumSyl(d, b));
    }
  }

  /** A sum of counts is a count exactly when every token resolves. */
  lemma {:induction false} SumSylResolves(d: Dict, ws: seq<string>)
    ensures SumSyl(d, ws).Count? <==> AllResolve(d, ws)
  {
    if |ws| > 0 {
      SumSylResolves(d, ws[1..]);
      assert forall i :: 1 <= i < |ws| ==> ws[i] == ws[1..][i - 1];
    }
  }

  /** Every character is a letter or a hyphen. */
  predicate LettersAndHyphens(w: string) {
    forall i :: 0 <= i < |w| ==> w[i] == '-' || IsLetter(w[i])
  }

  lemma LettersAndHyphensConcat(a: string, b: string)
    requires LettersAndHyphens(a) && LettersAndHyphens(b)
    ensures LettersAndHyphens(a + b)
  {
    assert forall i :: |a| <= i < |a + b| ==> (a + b)[i] == b[i - |a|];
  }

  /** The branch of `nsyl` for a hyphen between two letters. */
  lemma JoiningBranch(d: Dict, w: string)
    requires '-' in w && LettersAndHyphens(w) && HasJoiningHyphen(w)
    ensures NSyl(d, w) == SumSyl(d, Split(w, '-'))
  {
    assert !IsAlpha(w);
    assert !HasForeign(w);
  }

  /**
   * `well-known` is `well` plus `known`: two all-letter words joined by one
   * hyphen are counted as the sum of their counts.
   */
  lemma HyphenAdds(d: Dict, a: string, b: string)
    requires IsAlpha(a) && IsAlpha(b)
    ensures NSyl(d, a + "-" + b) == Count(WordSyllables(d, a) + WordSyllables(d, b))
  {
    var w := a + "-" + b;
    JoinedShape(a, b);
    JoiningBranch(d, w);
    SumPair(d, a, b);
  }

  lemma JoinedShape(a: string, b: string)
    requires IsAlpha(a) && IsAlpha(b)
    ensures var w := a + "-" + b;
      '-' in w && LettersAndHyphens(w) && HasJoiningHyphen(w) && Split(w, '-') == [a, b]
  {
    var w := a + "-" + b;
    assert w[|a|] == '-' && w[|a| - 1] == a[|a| - 1] && w[|a| + 1] == b[0];
    assert JoinsAt(w, |a|);
    LettersAndHyphensConcat(a, "-");
    LettersAndHyphensConcat(a + "-", b);
    assert Join([a, b], '-') == w;
    SplitJoin([a, b], '-');
  }

  lemma SumPair(d: Dict, a: string, b: string)
    requires IsAlpha(a) && IsAlpha(b)
    ensures SumSyl(d, [a, b]) == Count(WordSyllables(d, a) + WordSyllables(d, b))
  {
    AlphaCount(d, a);
    AlphaCount(d, b);
    SumCons(d, a, [b]);
    SumCons(d, b, []);
  }

  lemma AlphaCount(d: Dict, a: string)
    requires IsAlpha(a)
    ensures NSyl(d, a) == Count(WordSyllables(d, a))
  {
  }

  lemma SumCons(d: Dict, a: string, rest: seq<string>)
    ensures SumSyl(d, [a] + rest) == Plus(NSyl(d, a), SumSyl(d, rest))
  {
    assert ([a] + rest)[1..] == rest;
  }

  /** Each empty piece of a split counts one: `a-b--c` is `a` + `b` + 1 + `c`. */
  lemma EmptyPieceCountsOne(d: Dict, a: string, b: string, c: string)
    requires IsAlpha(a) && IsAlpha(b) && IsAlpha(c)
    ensures NSyl(d, a + "-" + b + "--" + c)
         == Count(WordSyllables(d, a) + WordSyllables(d, b) + 1 + WordSyllables(d, c))
  {
    var w := a + "-" + b + "--" + c;
    EmptyPieceShape(a, b, c);
    JoiningBranch(d, w);
    SumWithEmpty(d, a, b, c);
  }

  lemma SumWithEmpty(d: Dict, a: string, b: string, c: string)
    requires IsAlpha(a) && IsAlpha(b) && IsAlpha(c)
    ensures SumSyl(d, [a, b, "", c])
         == Count(WordSyllables(d, a) + WordSyllables(d, b) + 1 + WordSyllables(d, c))
  {
    EmptyThenWord(d, c);
    AlphaCount(d, b);
    SumCons(d, b, ["", c]);
    assert [b] + ["", c] == [b, "", c];
    AlphaCount(d, a);
    SumCons(d, a, [b, "", c]);
    assert [a] + [b, "", c] == [a, b, "", c];
  }

  lemma EmptyThenWord(d: Dict, c: string)
    requires IsAlpha(c)
    ensures SumSyl(d, ["", c]) == Count(1 + WordSyllables(d, c))
  {
    AlphaCount(d, c);
    SumCons(d, c, []);
    assert [c] + [] == [c];
    assert NSyl(d, "") == Count(1);
    SumCons(d, "", [c]);
    assert [""] + [c] == ["", c];
  }

  lemma EmptyPieceShape(a: string, b: string, c: string)
    requires IsAlpha(a) && IsAlpha(b) && IsAlpha(c)
    ensures var w := a + "-" + b + "--" + c;
      '-' in w && LettersAndHyphens(w) && HasJoiningHyphen(w) && Split(w, '-') == [a, b, "", c]
  {
    var w := a + "-" + b + "--" + c;
    assert w[|a|] == '-' && w[|a| - 1] == a[|a| - 1] && w[|a| + 1] == b[0];
    assert JoinsAt(w, |a|);
    LettersAndHyphensConcat(a, "-");
    LettersAndHyphensConcat(a + "-", b);
    LettersAndHyphensConcat(a + "-" + b, "--");
    LettersAndHyphensConcat(a + "-" + b + "--", c);
    var ps := [a, b, "", c];
    assert Join(ps, '-') == w by {
      assert ps[1..] == [b, "", c] && ps[1..][1..] == ["", c] && ps[1..][1..][1..] == [c];
      assert Join([c], '-') == c;
      assert Join(["", c], '-') == "-" + c;
      assert Join([b, "", c], '-') == b + "-" + "-" + c;
    }
    SplitJoin(ps, '-');
  }

  /** The branch of `nsyl` for a hyphen after a letter and before no word character. */
  lemma TrailingBranch(d: Dict, w: string)
    requires '-' in w && LettersAndHyphens(w) && !HasJoiningHyphen(w) && HasTrailingHyphen(w)
    ensures NSyl(d, w) == (var s := Strip(w, '-'); if |s| < |w| then NSyl(d, s) else Diverges)
  {
    assert !IsAlpha(w);
    assert !HasForeign(w);
  }

  /** A trailing hyphen is stripped: `word-` counts as `word`. */
  lemma TrailingHyphenStripped(d: Dict, a: string)
    requires IsAlpha(a)
    ensures NSyl(d, a + "-") == NSyl(d, a)
  {
    var w := a + "-";
    assert w[|a|] == '-' && w[|a| - 1] == a[|a| - 1];
    assert HasTrailingHyphen(w);
    assert !HasJoiningHyphen(w) by {
      forall i | 0 < i < |w| - 1
        ensures w[i] != '-'
      {
        assert w[i] == a[i];
      }
    }
    LettersAndHyphensConcat(a, "-");
    TrailingBranch(d, w);
    StripOneTrailing(a, '-');
  }

  /** With every variant voiced, each resolved count is at least one. */
  lemma {:induction false} AtLeastOne(d: Dict, w: string)
    requires Voiced(d)
    ensures NSyl(d, w).Count? ==> NSyl(d, w).n >= 1
    decreases |w|, 0
  {
    if IsAlpha(w) {
      AlphaCount(d, w);
      WordAtLeastOne(d, w);
    } else if '-' in w && !HasForeign(w) {
      assert LettersAndHyphens(w);
      if HasJoiningHyphen(w) {
        JoiningBranch(d, w);
        SumAtLeastLength(d, Split(w, '-'));
      } else if HasTrailingHyphen(w) {
        TrailingBranch(d, w);
        var s := Strip(w, '-');
        if |s| < |w| {
          AtLeastOne(d, s);
        }
      }
    }
  }

  /** With every variant voiced, an all-letter word counts at least one. */
  lemma WordAtLeastOne(d: Dict, w: string)
    requires Voiced(d) && IsAlpha(w)
    ensures WordSyllables(d, w) >= 1
  {
    var key := Lower(w);
    if key in d && w != "US" && w != "us" && w != "separate" {
      var cs := VariantCounts(d[key]);
      var i :| 0 <= i < |cs| && cs[i] == Min(cs);
      VoicedVariant(d, key, i);
    }
  }

  /** With every variant voiced, a resolved sum is at least the number of tokens. */
  lemma {:induction false} SumAtLeastLength(d: Dict, ws: seq<string>)
    requires Voiced(d)
    ensures SumSyl(d, ws).Count? ==> SumSyl(d, ws).n >= |ws|
    decreases TotalLen(ws), 1, |ws|
  {
    if |ws| > 0 {
      AtLeastOne(d, ws[0]);
      SumAtLeastLength(d, ws[1..]);
    }
  }

  /** Some letter before the hyphen at `j` is immediately followed by a hyphen. */
  lemma {:induction false} LetterBeforeHyphenRun(w: string, i: nat, j: nat)
    requires !HasForeign(w)
    requires i < j < |w| && IsLetter(w[i]) && w[j] == '-'
    ensures HasTrailingHyphen(w) || HasJoiningHyphen(w)
    decreases j - i
  {
    if w[i + 1] == '-' {
      if i + 2 < |w| && IsLetter(w[i + 2]) {
        assert JoinsAt(w, i + 1);
      } else {
        assert i + 1 == |w| - 1 || !IsWordChar(w[i + 2]);
      }
    } else {
      assert IsLetter(w[i + 1]);
      LetterBeforeHyphenRun(w, i + 1, j);
    }
  }

  /** A part of a token keeps the absence of foreign characters and of joining hyphens. */
  lemma SliceKeepsShape(w: string, t: string, lo: nat)
    requires lo + |t| <= |w| && forall k :: 0 <= k < |t| ==> t[k] == w[lo + k]
    requires !HasForeign(w) && !HasJoiningHyphen(w)
    ensures !HasForeign(t) && !HasJoiningHyphen(t)
  {
    forall k | 0 < k < |t| - 1
      ensures !JoinsAt(t, k)
    {
      assert !JoinsAt(w, lo + k);
    }
  }

  /** A stuck token stays stuck once its outer hyphens are stripped. */
  lemma StuckStrip(w: string)
    requires Stuck(w)
    ensures Stuck(Strip(w, '-'))
  {
    StuckFramed(w, Strip(w, '-'), Lead(w, '-'));
  }

  /** Cutting only hyphens off both ends of a stuck token leaves it stuck. */
  lemma StuckFramed(w: string, s: string, lo: nat)
    requires Framed(w, s, lo, '-')
    requires Stuck(w)
    ensures Stuck(s)
  {
    SliceKeepsShape(w, s, lo);
    var i, j, k :| 0 <= i < j < k < |w| && IsLetter(w[i]) && w[j] == '-' && IsLetter(w[k]);
    assert lo <= i && k < lo + |s|;
    assert s[i - lo] == w[i] && s[j - lo] == w[j] && s[k - lo] == w[k];
  }

  /** A token whose stripped form is stuck has an inner hyphen itself. */
  lemma StuckWiden(w: string)
    requires Stuck(Strip(w, '-'))
    ensures HasInnerHyphen(w)
  {
    InnerHyphenWiden(w, Strip(w, '-'), Lead(w, '-'));
  }

  /** An inner hyphen of a framed part is an inner hyphen of the whole. */
  lemma InnerHyphenWiden(w: string, s: string, lo: nat)
    requires Framed(w, s, lo, '-')
    requires HasInnerHyphen(s)
    ensures HasInnerHyphen(w)
  {
    var i, j, k :| 0 <= i < j < k < |s| && IsLetter(s[i]) && s[j] == '-' && IsLetter(s[k]);
    assert w[lo + i] == s[i] && w[lo + j] == s[j] && w[lo + k] == s[k];
  }

  /** A token with a hyphen but no outer hyphen, all letters and hyphens, has an inner hyphen. */
  lemma StuckUnstrippable(w: string)
    requires !HasForeign(w) && '-' in w
    requires |Strip(w, '-')| == |w|
    ensures HasInnerHyphen(w)
  {
    HyphenBetweenLetters(w);
  }

  /** A hyphen in a letters-and-hyphens token that begins and ends with a letter is inner. */
  lemma HyphenBetweenLetters(w: string)
    requires !HasForeign(w) && '-' in w
    requires w[0] != '-' && w[|w| - 1] != '-'
    ensures HasInnerHyphen(w)
  {
    var j := IndexOf(w, '-');
    assert IsLetter(w[0]) && IsLetter(w[|w| - 1]);
    assert 0 < j < |w| - 1;
  }

  /**
   * `nsyl` fails to return exactly on the stuck tokens; on every other
   * token it gives a count.
   */
  lemma {:induction false} DivergesExactly(d: Dict, w: string)
    ensures NSyl(d, w) == Diverges <==> Stuck(w)
    decreases |w|
  {
    if IsAlpha(w) {
    } else if '-' !in w {
    } else if HasForeign(w) {
    } else if HasJoiningHyphen(w) {
      SumNoHyphenResolves(d, Split(w, '-'));
    } else if HasTrailingHyphen(w) {
      var s := Strip(w, '-');
      if |s| < |w| {
        DivergesExactly(d, s);
        if Stuck(w) {
          StuckStrip(w);
        }
        if Stuck(s) {
          StuckWiden(w);
        }
      } else {
        StuckUnstrippable(w);
      }
    } else {
      if HasInnerHyphen(w) {
        var i, j, k :| 0 <= i < j < k < |w| && IsLetter(w[i]) && w[j] == '-' && IsLetter(w[k]);
        LetterBeforeHyphenRun(w, i, j);
      }
    }
  }

  /** `ab--cd` is the shortest kind of token on which `nsyl` never returns. */
  lemma DoubleHyphenDiverges(d: Dict, a: string, b: string)
    requires IsAlpha(a) && IsAlpha(b)
    ensures NSyl(d, a + "--" + b) == Diverges
  {
    var w := a + "--" + b;
    assert w[|a|] == '-' && w[|a| + 1] == '-';
    LettersAndHyphensConcat(a, "--");
    LettersAndHyphensConcat(a + "--", b);
    assert !HasForeign(w);
    assert !HasJoiningHyphen(w) by {
      forall i | 0 < i < |w| - 1 && w[i] == '-'
        ensures !(IsLetter(w[i - 1]) && IsLetter(w[i + 1]))
      {
        assert i == |a| || i == |a| + 1;
      }
    }
    assert w[0] == a[0] && w[|a| + 2] == b[0];
    assert HasInnerHyphen(w);
    DivergesExactly(d, w);
  }
}

=== FILE: pronounce.dfy ===
/**
 * The dictionary side of `nsyl`: the pronunciation dictionary, the syllable
 * count of one pronunciation variant, and the policy that turns the counts
 * of several variants into one (unique mode, else the mean rounded half to
 * even).
 */
module Pronounce {
  import opened Text
  import opened Pythonic

  /** A phoneme symbol such as `AH0` or `K`; the dictionary has no empty ones. */
  type Phoneme = p: string | |p| > 0 witness "K"

  /** One pronunciation of a word: its phoneme symbols in order. */
  type Variant = seq<Phoneme>

  /**
   * The pronunciation dictionary, keyed by lower-case word. Every word it
   * holds has at least one variant.
   */
  type Dict = d: map<string, seq<Variant>> | forall k :: k in d ==> |d[k]| > 0 witness map[]

  /** A phoneme ending in a digit carries a stress mark: it is a syllable nucleus. */
  predicate Stressed(p: Phoneme) {
    IsDigit(p[|p| - 1])
  }

  /** Every variant of every word has a stressed phoneme, as holds of real entries. */
  predicate Voiced(d: Dict) {
    forall k :: k in d ==> forall v :: v in d[k] ==> exists i :: 0 <= i < |v| && Stressed(v[i])
  }

  /** Which phonemes of a variant are stressed, position by position. */
  function Marks(v: Variant): seq<bool> {
    seq(|v|, i requires 0 <= i < |v| => Stressed(v[i]))
  }

  /** The syllable count of one variant: how many of its phonemes are stressed. */
  function StressCount(v: Variant): (n: nat)
    ensures n == multiset(Marks(v))[true]
    ensures n <= |v|
    ensures n > 0 <==> exists i :: 0 <= i < |v| && Stressed(v[i])
  {
    if |v| == 0 then 0
    else
      var n := (if Stressed(v[0]) then 1 else 0) + StressCount(v[1..]);
      assert forall i :: 0 < i < |v| ==> v[i] == v[1..][i - 1];
      assert Marks(v) == [Stressed(v[0])] + Marks(v[1..]);
      n
  }

  /** In a voiced dictionary every variant counts at least one syllable. */
  lemma VoicedVariant(d: Dict, k: string, i: nat)
    requires Voiced(d) && k in d && i < |d[k]|
    ensures StressCount(d[k][i]) >= 1
  {
    assert d[k][i] in d[k];
  }

  /** The per-variant counts, in the dictionary's variant order. */
  function VariantCounts(vs: seq<Variant>): seq<nat> {
    seq(|vs|, i requires 0 <= i < |vs| => StressCount(vs[i]))
  }

  function Freq(s: seq<nat>, x: nat): nat {
    multiset(s)[x]
  }

  /** `v` occurs in `s` strictly more often than any other value. */
  predicate IsUniqueMode(s: seq<nat>, v: nat) {
    v in s && forall u :: u in s && u != v ==> Freq(s, u) < Freq(s, v)
  }

  /** The largest frequency in `s` of a value drawn from `t`. */
  function MaxFreq(s: seq<nat>, t: seq<nat>): (m: nat)
    ensures forall x :: x in t ==> Freq(s, x) <= m
    ensures |t| > 0 ==> exists x :: x in t && Freq(s, x) == m
  {
    if |t| == 0 then 0
    else
      var m := MaxFreq(s, t[1..]);
      assert forall x :: x in t ==> x == t[0] || x in t[1..];
      if Freq(s, t[0]) >= m then Freq(s, t[0])
      else
        var x :| x in t[1..] && Freq(s, x) == m;
        assert x in t;
        m
  }

  /** The first value of `t` whose frequency in `s` is `m`. */
  function FirstOfFreq(s: seq<nat>, t: seq<nat>, m: nat): (x: nat)
    requires exists y :: y in t && Freq(s, y) == m
    ensures x in t && Freq(s, x) == m
  {
    if Freq(s, t[0]) == m then t[0]
    else
      assert forall y :: y in t && y != t[0] ==> y in t[1..];
      FirstOfFreq(s, t[1..], m)
  }

  /**
   * `statistics.mode` as it behaved before Python 3.8: the most common value
   * when exactly one value is most common, and a `StatisticsError` (here
   * `None`) when several tie or the data is empty.
   */
  function UniqueMode(s: seq<nat>): (r: Option<nat>)
    ensures r.Some? ==> IsUniqueMode(s, r.value)
    ensures r.None? ==> forall v :: !IsUniqueMode(s, v)
  {
    if |s| == 0 then None
    else
      var m := MaxFreq(s, s);
      var v := FirstOfFreq(s, s, m);
      if forall u :: u in s && Freq(s, u) == m ==> u == v then Some(v)
      else
        assert exists u :: u in s && Freq(s, u) == m && u != v;
        None
  }

  function Sum(s: seq<nat>): nat {
    if |s| == 0 then 0 else s[0] + Sum(s[1..])
  }

  function Min(s: seq<nat>): (r: nat)
    requires |s| > 0
    ensures r in s && forall i :: 0 <= i < |s| ==> r <= s[i]
  {
    if |s| == 1 then s[0]
    else
      var m := Min(s[1..]);
      assert forall i :: 1 <= i < |s| ==> s[i] == s[1..][i - 1];
      if s[0] <= m then s[0] else m
  }

  function Max(s: seq<nat>): (r: nat)
    requires |s| > 0
    ensures r in s && forall i :: 0 <= i < |s| ==> s[i] <= r
  {
    if |s| == 1 then s[0]
    else
      var m := Max(s[1..]);
      assert forall i :: 1 <= i < |s| ==> s[i] == s[1..][i - 1];
      if s[0] >= m then s[0] else m
  }

  /** The sum of `s` lies between `|s|` times its least and `|s|` times its greatest element. */
  lemma SumBetween(s: seq<nat>)
    requires |s| > 0
    ensures Min(s) * |s| <= Sum(s) <= Max(s) * |s|
  {
    SumAtLeast(s, Min(s));
    SumAtMost(s, Max(s));
  }

  lemma {:induction false} SumAtLeast(s: seq<nat>, lo: nat)
    requires forall i :: 0 <= i < |s| ==> lo <= s[i]
    ensures lo * |s| <= Sum(s)
  {
    if |s| > 0 {
      var t := s[1..];
      assert forall i :: 0 <= i < |t| ==> t[i] == s[i + 1];
      SumAtLeast(t, lo);
      assert lo * |s| == lo * |t| + lo;
    }
  }

  lemma {:induction false} SumAtMost(s: seq<nat>, hi: nat)
    requires forall i :: 0 <= i < |s| ==> s[i] <= hi
    ensures Sum(s) <= hi * |s|
  {
    if |s| > 0 {
      var t := s[1..];
      assert forall i :: 0 <= i < |t| ==> t[i] == s[i + 1];
      SumAtMost(t, hi);
      assert hi * |s| == hi * |t| + hi;
    }
  }

  /** The mean of non-empty counts rounded half to even: `int(round(mean(counts), 0))`. */
  function RoundedMean(counts: seq<nat>): (r: nat)
    requires |counts| > 0
    ensures NearestHalfEven(Sum(counts), |counts|, r)
    ensures Min(counts) <= r <= Max(counts)
  {
    var r := RoundHalfEven(Sum(counts), |counts|);
    SumBetween(counts);
    NearestHalfEvenBetween(Sum(counts), |counts|, Min(counts), Max(counts), r);
    r
  }

  /**
   * How `nsyl` turns the counts of a dictionary word's variants into one:
   * a single variant gives its own count; several give their unique mode,
   * or, when there is none, their mean rounded half to even. Either way
   * the result is the unique mode whenever there is one, and it never
   * leaves the range of the counts.
   */
  function Resolve(counts: seq<nat>): (r: nat)
    requires |counts| > 0
    ensures (exists v :: IsUniqueMode(counts, v)) ==> IsUniqueMode(counts, r)
    ensures (forall v :: !IsUniqueMode(counts, v)) ==> NearestHalfEven(Sum(counts), |counts|, r)
    ensures Min(counts) <= r <= Max(counts)
  {
    if |counts| > 1 then
      match UniqueMode(counts)
      case Some(v) => v
      case None => RoundedMean(counts)
    else
      assert forall u :: u in counts ==> u == counts[0];
      counts[0]
  }

  /** A unique mode is the only value that is one. */
  lemma UniqueModeIsUnique(s: seq<nat>, v: nat, w: nat)
    requires IsUniqueMode(s, v) && IsUniqueMode(s, w)
    ensures v == w
  {
  }

  /** When all variants agree, their common count is the result. */
  lemma {:induction false} ResolveAgreeing(counts: seq<nat>, c: nat)
    requires |counts| > 0
    requires forall i :: 0 <= i < |counts| ==> counts[i] == c
    ensures Resolve(counts) == c
  {
    assert counts[0] == c;
    assert Min(counts) == c;
    assert Max(counts) == c;
  }

  /**
   * Two variants that disagree have no unique mode, so the mean decides,
   * with ties going to the even neighbour: counts 2 and 3 give 2, counts
   * 3 and 4 give 4.
   */
  lemma ResolveTies()
    ensures Resolve([2, 3]) == 2
    ensures Resolve([3, 4]) == 4
  {
    NoModeOfTwo(2, 3);
    NoModeOfTwo(3, 4);
    assert Sum([2, 3]) == 5 && Sum([3, 4]) == 7;
    assert NearestHalfEven(5, 2, 2);
    NearestHalfEvenUnique(5, 2, 2, Resolve([2, 3]));
    assert NearestHalfEven(7, 2, 4);
    NearestHalfEvenUnique(7, 2, 4, Resolve([3, 4]));
  }

  lemma NoModeOfTwo(a: nat, b: nat)
    requires a != b
    ensures forall v :: !IsUniqueMode([a, b], v)
  {
    assert Freq([a, b], a) == 1 && Freq([a, b], b) == 1;
    forall v | v in [a, b]
      ensures !IsUniqueMode([a, b], v)
    {
      if v == a {
        assert b in [a, b] && b != v;
      } else {
        assert a in [a, b] && a != v;
      }
    }
  }
}

=== FILE: pythonic.dfy ===
/**
 * The Python built-ins whose exact semantics the readability tools depend
 * on: `round` with ties to even, and slicing with negative and
 * out-of-range bounds.
 */
module Pythonic {

  datatype Option<T> = None | Some(value: T)

  function Dist(a: int, b: int): nat {
    if a < b then b - a else a - b
  }

  /**
   * `r` is the integer nearest to `num / den`, ties going to the even
   * neighbour: how Python's `round` treats a ratio of integers.
   */
  predicate NearestHalfEven(num: int, den: nat, r: int)
    requires den > 0
  {
    && 2 * Dist(r * den, num) <= den
    && (2 * Dist(r * den, num) == den ==> r % 2 == 0)
  }

  /** `round(num / den)` computed exactly, with banker's rounding. */
  function RoundHalfEven(num: int, den: nat): (r: int)
    requires den > 0
    ensures NearestHalfEven(num, den, r)
  {
    var q := num / den;
    var rem := num % den;
    assert num == q * den + rem;
    assert (q + 1) * den == q * den + den;
    if 2 * rem < den then q
    else if 2 * rem > den then q + 1
    else if q % 2 == 0 then q
    else q + 1
  }

  lemma MulDistance(a: int, b: int, den: nat)
    requires den > 0
    ensures Dist(a * den, b * den) == Dist(a, b) * den
  {
    if a < b {
      assert b * den - a * den == (b - a) * den;
    } else {
      assert a * den - b * den == (a - b) * den;
    }
  }

  /** At most one integer is nearest to a ratio under ties-to-even. */
  lemma NearestHalfEvenUnique(num: int, den: nat, r1: int, r2: int)
    requires den > 0
    requires NearestHalfEven(num, den, r1) && NearestHalfEven(num, den, r2)
    ensures r1 == r2
  {
    if r1 != r2 {
      var a, b := r1 * den, r2 * den;
      MulDistance(r1, r2, den);
      DistTriangle(a, num, b);
      MulMono(1, Dist(r1, r2), den);
      if Dist(r1, r2) >= 2 {
        MulMono(2, Dist(r1, r2), den);
      }
    }
  }

  lemma DistTriangle(a: int, b: int, c: int)
    ensures Dist(a, c) <= Dist(a, b) + Dist(c, b)
  {
  }

  lemma MulMono(a: int, b: int, den: nat)
    requires a <= b
    ensures a * den <= b * den
  {
    assert b * den - a * den == (b - a) * den;
  }

  /** A rounded ratio stays inside any integer bounds of the exact ratio. */
  lemma NearestHalfEvenBetween(num: int, den: nat, lo: int, hi: int, r: int)
    requires den > 0
    requires lo * den <= num <= hi * den
    requires NearestHalfEven(num, den, r)
    ensures lo <= r <= hi
  {
    if r > hi {
      MulMono(hi + 1, r, den);
    }
    if r < lo {
      MulMono(r, lo - 1, den);
    }
  }

  /** Python's clamping of a slice bound `i` against a sequence of length `n`. */
  function SliceBound(i: int, n: nat): (b: nat)
    ensures b <= n
  {
    if i < 0 then (if i + n < 0 then 0 else i + n)
    else if i > n then n
    else i
  }

  /** `s[lo:hi]` with Python's slice semantics (step one). */
  function Slice<T>(s: seq<T>, lo: int, hi: int): (r: seq<T>)
    ensures SliceBound(lo, |s|) + |r| <= |s|
    ensures r == s[SliceBound(lo, |s|)..SliceBound(lo, |s|) + |r|]
    ensures |r| > 0 <==> SliceBound(lo, |s|) < SliceBound(hi, |s|)
    ensures |r| > 0 ==> SliceBound(lo, |s|) + |r| == SliceBound(hi, |s|)
  {
    var a := SliceBound(lo, |s|);
    var b := SliceBound(hi, |s|);
    if a < b then s[a..b] else []
  }
}

=== FILE: reals.dfy ===
/** Order facts about real multiplication, shared by the exact-real parts of the model. */
module Reals {

  /** Multiplying by a positive real keeps a strict order. */
  lemma ScaleRight(c: real, x: real, y: real)
    requires 0.0 < c && x < y
    ensures x * c < y * c
  {
    assert y * c - x * c == (y - x) * c;
  }
}

=== FILE: text.dfy ===
/**
 * ASCII character classes and the handful of Python `str` operations the
 * readability tools rely on: `isalpha`, `isalnum`, `lower`, `endswith`,
 * substring `in`, `split` and `strip`. Only ASCII is modelled.
 */
module Text {

  predicate IsUpper(c: char) { 'A' <= c <= 'Z' }
  predicate IsLower(c: char) { 'a' <= c <= 'z' }
  predicate IsLetter(c: char) { IsUpper(c) || IsLower(c) }
  predicate IsDigit(c: char) { '0' <= c <= '9' }
  predicate IsAlnum(c: char) { IsLetter(c) || IsDigit(c) }

  /** A character of the regular-expression class `\w`. */
  predicate IsWordChar(c: char) { IsAlnum(c) || c == '_' }

  /** Every character of `s` is a letter (true of the empty string). */
  predicate AllLetters(s: string) {
    forall i :: 0 <= i < |s| ==> IsLetter(s[i])
  }

  /** `str.isalpha()`: non-empty and letters only. */
  predicate IsAlpha(s: string) {
    |s| > 0 && AllLetters(s)
  }

  /** `str.isalnum()`: non-empty and letters or digits only. */
  predicate IsAlnumWord(s: string) {
    |s| > 0 && forall i :: 0 <= i < |s| ==> IsAlnum(s[i])
  }

  /** Some character of `s` satisfies the class `[a-zA-Z]`. */
  predicate HasLetter(s: string) {
    exists i :: 0 <= i < |s| && IsLetter(s[i])
  }

  function LowerChar(c: char): char {
    if IsUpper(c) then (c as int - 'A' as int + 'a' as int) as char else c
  }

  /** `str.lower()`. */
  function Lower(s: string): string {
    seq(|s|, i requires 0 <= i < |s| => LowerChar(s[i]))
  }

  /** `str.endswith(suffix)`. */
  predicate EndsWith(s: string, suffix: string) {
    |suffix| <= |s| && s[|s| - |suffix|..] == suffix
  }

  /** The substring test `sub in s`. */
  predicate Contains(s: string, sub: string)
    decreases |s|
  {
    sub <= s || (|s| > 0 && Contains(s[1..], sub))
  }

  /** Sum of the lengths of the strings in `ws`. */
  function TotalLen(ws: seq<string>): nat {
    if |ws| == 0 then 0 else |ws[0]| + TotalLen(ws[1..])
  }

  /** Position of the first occurrence of `c` in `s`. */
  function IndexOf(s: string, c: char): (i: nat)
    requires c in s
    ensures i < |s| && s[i] == c
    ensures c !in s[..i]
  {
    if s[0] == c then 0
    else
      var j := IndexOf(s[1..], c);
      assert s[..j + 1] == [s[0]] + s[1..][..j];
      j + 1
  }

  /** `sep.join(pieces)`. */
  function Join(pieces: seq<string>, sep: char): string {
    if |pieces| == 0 then ""
    else if |pieces| == 1 then pieces[0]
    else pieces[0] + [sep] + Join(pieces[1..], sep)
  }

  /**
   * `s.split(sep)` for a one-character separator. Every occurrence of the
   * separator cuts, so adjacent or outer separators give empty pieces.
   * The pieces are the unique separator-free list that joins back to `s`.
   */
  function Split(s: string, sep: char): (pieces: seq<string>)
    ensures |pieces| >= 1
    ensures sep in s ==> |pieces| >= 2
    ensures forall i :: 0 <= i < |pieces| ==> sep !in pieces[i]
    ensures Join(pieces, sep) == s
    ensures TotalLen(pieces) + |pieces| == |s| + 1
    decreases |s|
  {
    if sep !in s then [s]
    else
      var i := IndexOf(s, sep);
      var rest := Split(s[i + 1..], sep);
      var pieces := [s[..i]] + rest;
      assert pieces[1..] == rest;
      assert s == s[..i] + [sep] + s[i + 1..];
      pieces
  }

  /** Splitting the join of separator-free pieces gives the pieces back. */
  lemma {:induction false} SplitJoin(pieces: seq<string>, sep: char)
    requires |pieces| >= 1
    requires forall i :: 0 <= i < |pieces| ==> sep !in pieces[i]
    ensures Split(Join(pieces, sep), sep) == pieces
  {
    if |pieces| > 1 {
      var a := pieces[0];
      var rest := pieces[1..];
      var s := Join(pieces, sep);
      assert s == a + [sep] + Join(rest, sep);
      assert s[|a|] == sep && s[..|a|] == a;
      assert sep in s;
      var i := IndexOf(s, sep);
      forall k | 0 <= k < |a|
        ensures s[k] != sep
      {
        assert s[k] == a[k];
      }
      assert i == |a|;
      assert s[i + 1..] == Join(rest, sep);
      SplitJoin(rest, sep);
    }
  }

  /** The first position at or after `i` that does not hold `c`: where `lstrip` stops. */
  function SkipFrom(s: string, c: char, i: nat): (j: nat)
    requires i <= |s|
    ensures i <= j <= |s|
    ensures forall k :: i <= k < j ==> s[k] == c
    ensures j < |s| ==> s[j] != c
    decreases |s| - i
  {
    if i < |s| && s[i] == c then SkipFrom(s, c, i + 1) else i
  }

  /** The end of `s[lo..hi]` once its trailing `c`s are dropped: where `rstrip` stops. */
  function SkipBack(s: string, c: char, lo: nat, hi: nat): (j: nat)
    requires lo <= hi <= |s|
    ensures lo <= j <= hi
    ensures forall k :: j <= k < hi ==> s[k] == c
    ensures j > lo ==> s[j - 1] != c
    decreases hi - lo
  {
    if hi > lo && s[hi - 1] == c then SkipBack(s, c, lo, hi - 1) else hi
  }

  /** Length of the leading run of `c` in `s`. */
  function Lead(s: string, c: char): nat
    ensures Lead(s, c) <= |s|
  {
    SkipFrom(s, c, 0)
  }

  /** `w` holds `s` at `lo`, and every character of `w` around it is `c`. */
  predicate Framed(w: string, s: string, lo: nat, c: char) {
    && lo + |s| <= |w|
    && (forall k {:trigger s[k]} :: 0 <= k < |s| ==> s[k] == w[lo + k])
    && (forall i :: 0 <= i < lo ==> w[i] == c)
    && (forall i :: lo + |s| <= i < |w| ==> w[i] == c)
  }

  /**
   * `s.strip(c)`: the part of `s` left after removing every leading and
   * every trailing `c`; it is `s` itself exactly when `s` neither starts
   * nor ends with `c`.
   */
  function Strip(s: string, c: char): (r: string)
    ensures Framed(s, r, Lead(s, c), c)
    ensures |r| > 0 ==> r[0] != c && r[|r| - 1] != c
    ensures |r| == |s| <==> |s| == 0 || (s[0] != c && s[|s| - 1] != c)
  {
    var lo := Lead(s, c);
    var hi := SkipBack(s, c, lo, |s|);
    s[lo..hi]
  }

  /** Stripping `c` from a string that only ends in one extra `c` gives the string back. */
  lemma StripOneTrailing(a: string, c: char)
    requires |a| > 0 && a[0] != c && a[|a| - 1] != c
    ensures Strip(a + [c], c) == a
  {
    var w := a + [c];
    OneTrailingFrame(a, w, Strip(w, c), Lead(w, c), c);
  }

  /** The only part of `a + [c]` framed by `c` and neither starting nor ending in `c` is `a`. */
  lemma OneTrailingFrame(a: string, w: string, r: string, lo: nat, c: char)
    requires |a| > 0 && a[0] != c && a[|a| - 1] != c && w == a + [c]
    requires Framed(w, r, lo, c)
    requires |r| > 0 ==> r[0] != c && r[|r| - 1] != c
    ensures r == a
  {
    assert w[0] == a[0] && w[|a| - 1] == a[|a| - 1] && w[|a|] == c;
    assert lo == 0;
    assert |r| == |a|;
    forall k | 0 <= k < |a|
      ensures r[k] == a[k]
    {
      assert r[k] == w[k];
    }
  }
}

=== FILE: tokens.dfy ===
/**
 * The token and sentence filters of `get_words_list` and
 * `get_sentence_list`. The tokenizer's output is an input here; each filter
 * keeps, in their original order, exactly the tokens that satisfy its
 * predicate. Every pattern is a substring search (`re.search`), so a
 * pattern matches when it matches anywhere inside the token.
 */
module Tokens {
  import opened Text

  /** The elements of `s` that satisfy `p`, in their original order. */
  function Filter<T(!new)>(p: T -> bool, s: seq<T>): (r: seq<T>)
    ensures |r| <= |s|
    ensures forall i :: 0 <= i < |r| ==> p(r[i])
    ensures forall x :: x in r <==> x in s && p(x)
    decreases |s|
  {
    if |s| == 0 then []
    else
      var rest := Filter(p, s[1..]);
      assert forall x :: x in s <==> x == s[0] || x in s[1..];
      if p(s[0]) then [s[0]] + rest else rest
  }

  /** Filtering a concatenation filters each part: the order is kept. */
  lemma {:induction false} FilterConcat<T(!new)>(p: T -> bool, a: seq<T>, b: seq<T>)
    ensures Filter(p, a + b) == Filter(p, a) + Filter(p, b)
    decreases |a|
  {
    if |a| == 0 {
      assert a + b == b;
    } else {
      assert (a + b)[1..] == a[1..] + b;
      FilterConcat(p, a[1..], b);
    }
  }

  /**
   * Filtering two equally long sequences: when every position kept by the
   * first filter is kept by the second, the first keeps no more elements.
   */
  lemma {:induction false} FilterPointwiseBound<A(!new), B(!new)>(p: A -> bool, q: B -> bool, s: seq<A>, t: seq<B>)
    requires |s| == |t|
    requires forall i :: 0 <= i < |s| && p(s[i]) ==> q(t[i])
    ensures |Filter(p, s)| <= |Filter(q, t)|
    decreases |s|
  {
    if |s| > 0 {
      assert forall i :: 0 <= i < |s[1..]| ==> s[1..][i] == s[i + 1] && t[1..][i] == t[i + 1];
      FilterPointwiseBound(p, q, s[1..], t[1..]);
    }
  }

  /** Appending one element keeps it exactly when it qualifies. */
  lemma FilterSnoc<T(!new)>(p: T -> bool, s: seq<T>, x: T)
    ensures Filter(p, s + [x]) == if p(x) then Filter(p, s) + [x] else Filter(p, s)
  {
    FilterConcat(p, s, [x]);
    assert [x][1..] == [];
  }

  /** Filtering one more element of a prefix adds one exactly when it qualifies. */
  lemma FilterPrefixStep<T(!new)>(p: T -> bool, s: seq<T>, i: nat)
    requires i < |s|
    ensures |Filter(p, s[..i + 1])| == |Filter(p, s[..i])| + (if p(s[i]) then 1 else 0)
  {
    assert s[..i + 1] == s[..i] + [s[i]];
    FilterSnoc(p, s[..i], s[i]);
  }

  /** A counting loop over `s`: one for each element that satisfies `p`. */
  method CountKept<T(!new)>(p: T -> bool, s: seq<T>) returns (count: nat)
    ensures count == |Filter(p, s)|
  {
    count := 0;
    var i := 0;
    while i < |s|
      invariant 0 <= i <= |s|
      invariant count == |Filter(p, s[..i])|
    {
      FilterPrefixStep(p, s, i);
      if p(s[i]) {
        count := count + 1;
      }
      i := i + 1;
    }
    assert s[..|s|] == s;
  }

  /** Every occurrence of a kept value is kept, every other value is dropped. */
  lemma {:induction false} FilterCounts<T(!new)>(p: T -> bool, s: seq<T>, x: T)
    ensures multiset(Filter(p, s))[x] == if p(x) then multiset(s)[x] else 0
    decreases |s|
  {
    if |s| > 0 {
      var rest := Filter(p, s[1..]);
      FilterCounts(p, s[1..], x);
      assert s == [s[0]] + s[1..];
      assert multiset(s) == multiset([s[0]]) + multiset(s[1..]);
      if p(s[0]) {
        assert Filter(p, s) == [s[0]] + rest;
        assert multiset(Filter(p, s)) == multiset([s[0]]) + multiset(rest);
      } else {
        assert Filter(p, s) == rest;
      }
    }
  }

  /** A filter keeps everything exactly when every element qualifies. */
  lemma {:induction false} FilterKeepsAll<T(!new)>(p: T -> bool, s: seq<T>)
    ensures |Filter(p, s)| == |s| <==> forall i :: 0 <= i < |s| ==> p(s[i])
    decreases |s|
  {
    if |s| > 0 {
      FilterKeepsAll(p, s[1..]);
      assert forall i :: 1 <= i < |s| ==> s[i] == s[1..][i - 1];
    }
  }

  /** A filter keeps nothing exactly when no element qualifies. */
  lemma FilterKeepsNone<T(!new)>(p: T -> bool, s: seq<T>)
    ensures |Filter(p, s)| == 0 <==> forall i :: 0 <= i < |s| ==> !p(s[i])
  {
    if |Filter(p, s)| == 0 {
      forall i | 0 <= i < |s|
        ensures !p(s[i])
      {
        assert s[i] in s;
      }
    } else {
      assert Filter(p, s)[0] in s;
    }
  }

  /** A character of the class `[A-z]`: the letters and `[ \ ] ^ _ ` between them. */
  predicate InUpperAToLowerZ(c: char) {
    'A' <= c <= 'z'
  }

  predicate ApostropheAt(w: string, i: nat)
    requires i + 1 < |w|
  {
    w[i] == '\'' && InUpperAToLowerZ(w[i + 1])
  }

  /** `'[a-zA-z]+`: an apostrophe followed by a character of `[A-z]`. */
  predicate HasApostrophe(w: string) {
    exists i :: 0 <= i && i + 1 < |w| && ApostropheAt(w, i)
  }

  /** Every character of `w` in `[lo, hi)` is a letter. */
  predicate LettersIn(w: string, lo: nat, hi: nat)
    requires lo <= hi <= |w|
  {
    forall k :: lo <= k < hi ==> IsLetter(w[k])
  }

  /**
   * A match of `[a-zA-Z]+\.[a-zA-Z]+\.[a-zA-Z]+(\/[a-zA-Z0-9]*)` with the
   * dots at `p` and `q` and the slash at `r`: a letter before the first dot,
   * a non-empty letter run between the dots and between the second dot and
   * the slash. The slash group is mandatory; its alphanumeric tail may be empty.
   */
  predicate UrlAt(w: string, p: nat, q: nat, r: nat)
    requires 0 < p < q < r < |w|
  {
    && w[p] == '.' && w[q] == '.' && w[r] == '/'
    && IsLetter(w[p - 1])
    && p + 1 < q && LettersIn(w, p + 1, q)
    && q + 1 < r && LettersIn(w, q + 1, r)
  }

  predicate HasUrl(w: string) {
    exists p, q, r :: 0 < p < q < r < |w| && UrlAt(w, p, q, r)
  }

  predicate DecimalAt(w: string, i: nat)
    requires 0 < i < |w| - 1
  {
    IsDigit(w[i - 1]) && w[i] == '.' && IsDigit(w[i + 1])
  }

  /** `\d+\.\d+`: a dot with a digit on either side. */
  predicate HasDecimal(w: string) {
    exists i :: 0 < i < |w| - 1 && DecimalAt(w, i)
  }

  /** `"-" in word` and `[a-zA-Z0-9]+`: a hyphen and some ASCII letter or digit. */
  predicate HyphenAlnum(w: string) {
    '-' in w && exists i :: 0 <= i < |w| && IsAlnum(w[i])
  }

  /** The test `get_words_list` applies to each token. */
  predicate KeepWord(w: string) {
    IsAlnumWord(w) || HasApostrophe(w) || HasUrl(w) || HasDecimal(w) || HyphenAlnum(w)
  }

  /** The test `get_sentence_list` applies to each sentence: some ASCII letter. */
  predicate KeepSentence(s: string) {
    HasLetter(s)
  }

  /** `get_words_list` over the tokenizer's output. */
  function WordsList(tokens: seq<string>): (r: seq<string>)
    ensures forall i :: 0 <= i < |r| ==> KeepWord(r[i]) && |r[i]| > 0
    ensures forall w :: w in r <==> w in tokens && KeepWord(w)
  {
    var r := Filter(KeepWord, tokens);
    assert forall i :: 0 <= i < |r| ==> KeepWord(r[i]);
    forall i | 0 <= i < |r|
      ensures |r[i]| > 0
    {
      KeptWordNonEmpty(r[i]);
    }
    r
  }

  /** `get_sentence_list` over the sentence splitter's output. */
  function SentenceList(sentences: seq<string>): (r: seq<string>)
    ensures forall i :: 0 <= i < |r| ==> HasLetter(r[i])
    ensures forall s :: s in r <==> s in sentences && HasLetter(s)
  {
    Filter(KeepSentence, sentences)
  }

  /** `get_word_count`. */
  function WordCount(tokens: seq<string>): (n: nat)
    ensures n <= |tokens|
    ensures n == |tokens| <==> forall i :: 0 <= i < |tokens| ==> KeepWord(tokens[i])
    ensures n == 0 <==> forall i :: 0 <= i < |tokens| ==> !KeepWord(tokens[i])
  {
    FilterKeepsAll(KeepWord, tokens);
    FilterKeepsNone(KeepWord, tokens);
    |WordsList(tokens)|
  }

  /** `get_sentence_count`. */
  function SentenceCount(sentences: seq<string>): (n: nat)
    ensures n <= |sentences|
    ensures n == |sentences| <==> forall i :: 0 <= i < |sentences| ==> HasLetter(sentences[i])
    ensures n == 0 <==> forall i :: 0 <= i < |sentences| ==> !HasLetter(sentences[i])
  {
    FilterKeepsAll(KeepSentence, sentences);
    FilterKeepsNone(KeepSentence, sentences);
    |SentenceList(sentences)|
  }

  /** Every kept token has at least one character. */
  lemma KeptWordNonEmpty(w: string)
    requires KeepWord(w)
    ensures |w| > 0
  {
  }

  /** The words of two stretches of text are the words of each, in order. */
  lemma WordsListConcat(a: seq<string>, b: seq<string>)
    ensures WordsList(a + b) == WordsList(a) + WordsList(b)
  {
    FilterConcat(KeepWord, a, b);
  }

  /** Decimals, contractions and URL paths are words; punctuation and hyphen runs are not. */
  lemma WordExamples()
    ensures KeepWord("3.5")
    ensures KeepWord("n't")
    ensures KeepWord("e-mail")
    ensures KeepWord("www.example.com/page")
  {
    assert DecimalAt("3.5", 1);
    assert ApostropheAt("n't", 1);
    assert "e-mail"[1] == '-' && IsAlnum("e-mail"[0]);
    var u := "www.example.com/page";
    assert LettersIn(u, 4, 11) && LettersIn(u, 12, 15);
    assert UrlAt(u, 3, 11, 15);
  }

  /** Tokens of punctuation alone, hyphens included, are not words. */
  lemma PunctuationIsNotAWord(w: string)
    requires forall i :: 0 <= i < |w| ==> w[i] in "-,.;:!?()"
    ensures !KeepWord(w)
  {
    assert forall i :: 0 <= i < |w| ==> !IsAlnum(w[i]) && w[i] != '\'' && w[i] != '/' && !IsDigit(w[i]);
    if |w| > 0 {
      assert !IsAlnum(w[0]);
    }
  }

  /**
   * The URL pattern wants three dot-separated letter runs and a slash: a
   * bare domain or a two-label URL is not a word.
   */
  lemma UrlNeedsThreeLabelsAndSlash()
    ensures !KeepWord("www.example.com")
    ensures !KeepWord("example.com/page")
  {
    var a := "www.example.com";
    assert !IsAlnum(a[3]);
    assert forall i :: 0 <= i < |a| ==> a[i] != '/' && a[i] != '\'' && a[i] != '-' && !IsDigit(a[i]);
    var b := "example.com/page";
    assert !IsAlnum(b[7]);
    assert forall i :: 0 <= i < |b| ==> b[i] != '\'' && b[i] != '-' && !IsDigit(b[i]);
    assert forall i :: 0 <= i < |b| && b[i] == '.' ==> i == 7;
  }

  /** The class `[a-zA-z]` also admits `_`, so `'_` is a word. */
  lemma ApostropheRangeQuirk()
    ensures KeepWord("'_")
  {
    assert ApostropheAt("'_", 0);
  }

  /** A list marker such as `1.` is not a sentence; a sentence with a letter is. */
  lemma SentenceExamples()
    ensures SentenceList(["1.", "Introduction."]) == ["Introduction."]
  {
    var t := ["1.", "Introduction."];
    assert !HasLetter("1.");
    assert IsLetter("Introduction."[0]);
    assert t[1..] == ["Introduction."];
    assert t[1..][1..] == [];
  }
}
